=== FILE: README.md ===
# Pine logging library — a Dafny model of its core

Pine is a small C# logging library. A `PineLogger` drops entries below its
configuration's minimum level. Every other entry gets the logger's category and
goes to each configured target. The configuration comes from a
fluent `LoggerBuilder`.

This project models the core of the library as immutable values and pure step functions:

- **Formatter.** `DefaultFormatter.Format` turns an entry into text. The two
  `DateTime` renderings it and the rotating sink use (`HH:mm:ss.fff` and
  `yyyyMMdd-HHmmss`) are modelled character by character as the invariant
  culture renders them.
- **FileTarget.** A queued sink. Each flush appends the whole queue to one
  file, one line per message.
- **RotatingFileTarget.** A queued sink that renames the active file before a
  batch would push it past `maxFileSize`. It optionally gzips the renamed file
  and then prunes old rotated files by creation time.
- **ConditionalTarget.** A decorator that consults a predicate once per write.
- **PineLogger.** Level gate, category stamping, fan-out to every target, dispose.
- **LoggerBuilder and PineConfiguration.** The builder and the configuration's
  default values.

The file system is a map from a path (directory, name) to the file's text and
creation time. File sizes are UTF-8 byte counts, computed from the
characters. `Environment.NewLine` is `"\n"`.

The following are inputs of the operation that needs them:

- the clock;
- the directory listing `Directory.GetFiles` returns;
- which deletions throw;
- how a compression attempt ends;
- what a condition predicate answers on its n-th evaluation.

Configuration objects are shared by reference in the library. A builder and
every logger derived from it read and write the same object. The model keeps
configurations in a store indexed by handle.

Two defects under "Findings" are modelled both as written and corrected. A
rotating sink's `Settings` choose the cleanup glob (`glob`) and when compression
deletes the original (`order`); the library's defaults are the as-written ones.

The modules follow the library's source files:

| module | models |
|---|---|
| `Wrappers`, `Text` | options; newline, UTF-8 byte count, line rendering, digits, upper-casing |
| `Clock`, `LogEntries` | `DateTime` and its two renderings; `LogLevel`, `LogEntry` |
| `DefaultFormatter` | `Formatters/DefaultFormatter.cs` |
| `FileSystem` | the file operations the sinks use |
| `FileTarget` | `Targets/FileTarget.cs` |
| `RotatedFiles`, `RotatingFileTarget` | `Targets/RotationFileTarget.cs`: names, glob and cleanup; the sink itself |
| `RetentionFinding` | a concrete instance of the cleanup defect under "Findings" |
| `Targets` | recording sinks and `Targets/ConditionalTarget.cs` |
| `Configuration`, `PineLogger`, `LoggerBuilder` | `Configuration/PineConfiguration.cs`, `PineLogger.cs`, `Configuration/LoggerBuilder.cs` |

## Model

| member | source | states |
|---|---|---|
| Text.Utf8Count | Targets/RotationFileTarget.cs:75 | The UTF-8 byte count of a text lies between its length and four times its length. |
| Text.Utf8CountAppend | Targets/RotationFileTarget.cs:75-83 | Byte counts add up over concatenation, so the tracked size stays the file's byte length after each append. |
| Text.Utf8CountAscii | Targets/RotationFileTarget.cs:75 | A text has as many bytes as characters exactly when it is all ASCII. |
| Text.JoinThenNewLine | Targets/RotationFileTarget.cs:74 | For a non-empty batch, joining with newlines and adding a final newline equals "each message followed by a newline". For the empty batch it does not. |
| Text.LinesAppend | Targets/FileTarget.cs:48 | Rendering two batches one after the other as lines is the same as rendering their concatenation. |
| Text.Upper | Formatters/DefaultFormatter.cs:12 | Upper-casing keeps the length and maps every character through ASCII upper-casing, as the invariant culture does for the level names. |
| Clock.ClockText | Formatters/DefaultFormatter.cs:11 | The time of day is 12 characters with `:` at 2 and 5 and `.` at 8. |
| Clock.ClockTextRoundTrip | Formatters/DefaultFormatter.cs:11 | Hour, minute, second and millisecond of a valid time read back from their digit fields. |
| Clock.StampText | Targets/RotationFileTarget.cs:91 | The rotation stamp is eight digits, a dash and six digits. |
| Clock.StampTextRoundTrip | Targets/RotationFileTarget.cs:91 | Year, month, day, hour, minute and second of a valid time read back from the stamp's fields. |
| DefaultFormatter.Format | Formatters/DefaultFormatter.cs:7-37 | The output opens with `[time] [LEVEL] `. `[category] ` follows exactly when the category is non-null and non-empty, then the message. A newline and the exception follow exactly when there is an exception, then a newline and the `  key: value` run exactly when there are properties. |
| DefaultFormatter.PlainEntryIsOneLine | Formatters/DefaultFormatter.cs:9-36 | Without exception or properties the text is exactly header, optional category and message, with no newline added. |
| DefaultFormatter.MessageIsRecoverable | Formatters/DefaultFormatter.cs:19 | Entries that differ only in their message never format alike. |
| FileSystem.Append | Targets/FileTarget.cs:48 | Appending adds the text at the end and creates a missing file with the current time. No other file changes. |
| FileSystem.Move | Targets/RotationFileTarget.cs:98 | A move to a free name carries the entry, creation time included, to the new path. No other file changes. |
| FileTarget.Create | Targets/FileTarget.cs:14-24 | A new sink over a path whose directory part is non-empty has an empty queue and leaves the files alone. |
| FileTarget.Accept | Targets/FileTarget.cs:26-31 | Accepting puts the message at the end of the queue and touches no file. |
| FileTarget.WriteAsync | Targets/FileTarget.cs:26-31 | What is queued is the default formatting of the entry. |
| FileTarget.Flush | Targets/FileTarget.cs:33-55 | A flush empties the queue. An empty queue changes nothing. Otherwise the file gains the queued messages as lines, in order, and no other file changes. |
| FileTarget.Dispose | Targets/FileTarget.cs:57-62 | In the sequential model, once the final flush completes, the queue is empty and every queued message is in the file (see "Left out" for what the library does instead). |
| FileTarget.FlushOrAcceptShift | Targets/FileTarget.cs:26-55 | One accept or flush moves text between queue and file without loss or reordering. |
| FileTarget.NoLoss | Targets/FileTarget.cs:26-55 | Over any interleaving of accepts and flushes, file text plus queued lines is the start state plus all accepted messages in acceptance order. No other file changes. |
| FileTarget.DisposeWritesEverything | Targets/FileTarget.cs:57-62 | In the sequential model, after any run, once the final flush completes every accepted message is in the file, in order. |
| RotatedFiles.LastDot | Targets/RotationFileTarget.cs:89-90 | Finds the last dot of a name, or reports that there is none. |
| RotatedFiles.StemAndExtension | Targets/RotationFileTarget.cs:89-90 | Name without extension plus extension gives the name back, except a trailing dot. A non-empty extension is a dot followed by non-dot characters. |
| RotatedFiles.RotatedNameShape | Targets/RotationFileTarget.cs:93 | Every `{stem}.{stamp}{ext}` name, with any tail such as `.gz`, has the rotated-name shape. |
| RotatedFiles.AsWrittenMissesRotated | Targets/RotationFileTarget.cs:140 | The glob as written (`????-??????`) matches no rotated name. |
| RotatedFiles.IntendedMatchesRotated | Targets/RotationFileTarget.cs:140 | The glob with eight leading `?` matches every rotated name. |
| RotatedFiles.BaseNameIsNoRotatedName | Targets/RotationFileTarget.cs:140 | The active file's own name is neither a rotated name nor matched by the glob. |
| RotatedFiles.InsertByAge | Targets/RotationFileTarget.cs:143 | Inserting into a newest-first list keeps it newest-first and adds exactly that file. |
| RotatedFiles.SortNewestFirst | Targets/RotationFileTarget.cs:143 | The result is ordered by descending creation time and is a permutation of the input. |
| RotatedFiles.Skip | Targets/RotationFileTarget.cs:146 | `Skip(n)` drops the first n elements. It drops none for n at most 0 and all for n at least the length. |
| RotatedFiles.Found | Targets/RotationFileTarget.cs:141 | A path is found exactly when it is listed, exists and is in the glob's scope. |
| RotatedFiles.Cleanup | Targets/RotationFileTarget.cs:132-164 | Cleanup only deletes, and only doomed files (found files past the first maxFiles newest). Every doomed file whose delete does not fail is gone. Out-of-scope, unlisted and undeletable files stay. Nothing is deleted while at most maxFiles are found. |
| RotatedFiles.CleanupKeepsNewest | Targets/RotationFileTarget.cs:143-146 | A found file that survives is at least as new as any file deleted. |
| RotatedFiles.RetentionBound | Targets/RotationFileTarget.cs:140-158 | If the listing shows every in-scope file and no delete fails, at most maxFiles in-scope files remain. |
| RotatingFileTarget.DefaultSettings | Targets/RotationFileTarget.cs:20-23 | The defaults are 100 MiB, 7 files, no compression, the glob as written and the delete inside the streams' scope as written. |
| RotatingFileTarget.Create | Targets/RotationFileTarget.cs:20-39 | After construction the active path is the base path. The tracked size is the existing file's byte length, or 0 when it is absent. |
| RotatingFileTarget.Accept | Targets/RotationFileTarget.cs:41-46 | Accepting appends to the queue only. Size, active path and files are unchanged. |
| RotatingFileTarget.WriteAsync | Targets/RotationFileTarget.cs:41-46 | The queued message is the default formatting of the entry. |
| RotatingFileTarget.Compress | Targets/RotationFileTarget.cs:112-130 | After a complete compression the `.gz` holds the whole text and the original is gone. A failed open, copy or delete leaves the original untouched; a failed delete also leaves a complete `.gz`. A failed gzip trailer, with the delete inside the streams' scope as written, leaves no original and a `.gz` holding only what was written; with the streams closed first it leaves the original. Only those two paths change. |
| RotatingFileTarget.RotatedPathIsFresh | Targets/RotationFileTarget.cs:88-94 | The rotated path and its `.gz` differ from the base path and have the rotated-name shape. |
| RotatingFileTarget.MoveAside | Targets/RotationFileTarget.cs:96-104 | An absent active file moves nothing. An existing one leaves the base path. Its text survives in the rotated file or, after a complete compression, in the `.gz`, except when the gzip trailer fails after the delete: then only the partial `.gz` is left. |
| RotatingFileTarget.MoveAndCompress | Targets/RotationFileTarget.cs:98-103 | Moving an existing file to a free path and optionally compressing it removes the original. Its text ends up in the moved file, or in the `.gz` after a complete compression; when the gzip trailer fails after the delete, only the partial `.gz` is left. No other existing file disappears, and only the three paths involved change. |
| RotatingFileTarget.Rotate | Targets/RotationFileTarget.cs:86-110 | Rotation resets the active path to the base path and the size to 0. From a valid state it frees the base path and stays valid. |
| RotatingFileTarget.Write | Targets/RotationFileTarget.cs:72-84 | Rotation comes first exactly when size plus batch bytes exceeds the limit. The new size is the batch bytes after a rotation, else old size plus batch bytes. Without rotation only the active file grows. After one it holds exactly the batch. |
| RotatingFileTarget.Flush | Targets/RotationFileTarget.cs:48-70 | A flush drains the whole queue as one batch in order. An empty queue does nothing. The active file ends with the queued lines. The size invariant is kept. |
| RotatingFileTarget.Dispose | Targets/RotationFileTarget.cs:166-171 | In the sequential model, once the final flush completes, the queue is empty and the invariant holds. |
| RotatingFileTarget.OversizedBatchWrittenWhole | Targets/RotationFileTarget.cs:77-83 | A batch larger than the limit still rotates and goes whole into the fresh file. |
| RotatingFileTarget.RotationBoundary | Targets/RotationFileTarget.cs:77 | Landing exactly on the limit does not rotate; one byte more does. |
| RotatingFileTarget.ThreeBatches | Targets/RotationFileTarget.cs:72-84 | With a 1000-byte limit, two 400-byte batches share a file and the third starts a new one holding 400 bytes. |
| RotatingFileTarget.RotationLosesNothing | Targets/RotationFileTarget.cs:86-130 | With the library's glob, unless compression is on and the gzip trailer fails after the delete (possible only in the library's stream order), the rotated file (or its `.gz`) followed by the new active file holds the old text and then the batch. This covers the library as written without compression and for every other compression ending, and the corrected order for every ending. |
| RotatingFileTarget.AsWrittenFinalizeLosesText | Targets/RotationFileTarget.cs:116-128 | As written, a compressed rotation whose gzip trailer fails leaves no rotated file, a `.gz` holding only what was written, and an active file holding only the new batch: the old text is gone. |
| RotatingFileTarget.AsWrittenNeverPrunes | Targets/RotationFileTarget.cs:132-164 | With the library's glob, a rotation deletes no rotated file. |
| RotatingFileTarget.RotationRetention | Targets/RotationFileTarget.cs:132-164 | With the intended glob, a complete listing and no failed deletes, at most maxFiles rotated files remain after a rotation. |
| RetentionFinding.ExampleNamesAreRotated | Targets/RotationFileTarget.cs:91-93 | The three example names are rotated names of `logs/app.log`. |
| RetentionFinding.AsWrittenFindsNothing | Targets/RotationFileTarget.cs:140-141 | The library's glob finds none of them. |
| RetentionFinding.IntendedFindsAll | Targets/RotationFileTarget.cs:140-141 | The intended glob finds all three. |
| RetentionFinding.SortedExample | Targets/RotationFileTarget.cs:143 | Newest-first ordering puts them newest, middle, oldest. |
| RetentionFinding.AsWrittenKeepsThreeOfTwo | Targets/RotationFileTarget.cs:140-158 | With maxFiles 2, cleanup as written leaves all three files. |
| RetentionFinding.IntendedDoomsOldest | Targets/RotationFileTarget.cs:146 | With the intended glob only the oldest file is past the first two. |
| RetentionFinding.CleanupOfOne | Targets/RotationFileTarget.cs:146-158 | When exactly one file is doomed and no delete fails, cleanup removes that file and nothing else. |
| RetentionFinding.IntendedKeepsTwoNewest | Targets/RotationFileTarget.cs:140-158 | With the intended glob, cleanup deletes exactly the oldest file. |
| Targets.WriteAsync | Targets/ConditionalTarget.cs:5-8 | A conditional sink evaluates its condition exactly once. When it is false the inner sink is untouched. When it is true the inner sink receives exactly one `WriteAsync` of the same entry. The bottom sink records the entry exactly when every condition on the way admits it. |
| Targets.Dispose | Targets/ConditionalTarget.cs:10-13 | Dispose reaches the bottom sink once and leaves every condition's evaluation count, at every level, unchanged. |
| Targets.ClosedGateIsSilent | Targets/ConditionalTarget.cs:7 | A condition that stays false keeps its inner sink untouched through any number of writes, evaluated once per write. |
| Targets.OpenGatePassesAll | Targets/ConditionalTarget.cs:7 | A condition that stays true passes every entry through to its sink in order, evaluated once per write. |
| Configuration.Defaults | Configuration/PineConfiguration.cs:3-10 | Defaults: level Info, no targets, both flags true, no default category. |
| PineLogger.Construct | PineLogger.cs:5-7 | A logger's category is the given one, or else the configuration's default category at construction. |
| PineLogger.ForCategory | PineLogger.cs:11-14 | The derived logger shares the configuration handle and carries the given category. |
| PineLogger.Entry | PineLogger.cs:21-28 | The entry carries the clock reading, level, message, logger category, exception and properties unchanged. |
| PineLogger.FanOut | PineLogger.cs:30-31 | Every target is written once, with the same entry. |
| PineLogger.LogAsync | PineLogger.cs:16-32 | Below the minimum level nothing changes and no target is called. Otherwise each target of the logger's configuration becomes exactly its own `WriteAsync` of the entry, so it records the entry exactly when its conditions admit it and each condition on the way counts one evaluation. Nothing else changes. |
| PineLogger.TraceAsync | PineLogger.cs:40-41 | Logs at Trace with no exception. |
| PineLogger.DebugAsync | PineLogger.cs:43-44 | Logs at Debug with no exception. |
| PineLogger.InfoAsync | PineLogger.cs:46-47 | Logs at Info with no exception. |
| PineLogger.WarningAsync | PineLogger.cs:49-50 | Logs at Warning with no exception. |
| PineLogger.ErrorAsync | PineLogger.cs:52-54 | Logs at Error with the caller's exception. |
| PineLogger.FatalAsync | PineLogger.cs:56-58 | Logs at Fatal with the caller's exception. |
| PineLogger.DisposeEach | PineLogger.cs:80-83 | Each target becomes exactly its own `Dispose`: same shape, the same evaluation counts, one more `DisposeCall`. |
| PineLogger.DisposeLogger | PineLogger.cs:78-84 | Dispose replaces each target of the configuration by exactly its own `Dispose` (same shape and evaluation counts, one more `DisposeCall`) and changes nothing else. |
| PineLogger.DefaultsDropTraceAndDebug | Configuration/PineConfiguration.cs:5 | The default configuration lets a level through exactly when it is neither Trace nor Debug. |
| PineLogger.GateIsMonotone | PineLogger.cs:19 | The gate is strict: the minimum level itself passes, and any level above a passing one passes. |
| PineLogger.ForCategorySharesTargets | PineLogger.cs:11-14 | Logging through a derived logger is logging through the original with the new category. |
| LoggerBuilder.New | Configuration/LoggerBuilder.cs:8 | A new builder owns a fresh configuration object holding the defaults. |
| LoggerBuilder.MinimumLevel | Configuration/LoggerBuilder.cs:10-14 | Sets the level only and returns the same builder. |
| LoggerBuilder.WriteToConsole | Configuration/LoggerBuilder.cs:16-20 | Appends one console target at the end and returns the same builder. |
| LoggerBuilder.WriteToFile | Configuration/LoggerBuilder.cs:22-26 | Appends one file target at the end and returns the same builder, for every path (see "Left out" for the throw on a bare file name). |
| LoggerBuilder.WriteToJsonFile | Configuration/LoggerBuilder.cs:28-32 | Appends one JSON file target at the end and returns the same builder. |
| LoggerBuilder.WithDefaultCategory | Configuration/LoggerBuilder.cs:34-38 | Sets the default category only and returns the same builder. |
| LoggerBuilder.AddTarget | Configuration/LoggerBuilder.cs:40-44 | Appends the given target at the end, keeps the earlier ones and returns the same builder. |
| LoggerBuilder.Build | Configuration/LoggerBuilder.cs:46-49 | The logger uses the builder's own configuration object. Its category is that object's default category at build time. |
| LoggerBuilder.ApplyAllEffect | Configuration/LoggerBuilder.cs:8-44 | Over any call chain the targets grow by exactly the added ones, in order. The last level and last default category win. The flags and other configurations are untouched. |
| LoggerBuilder.BuiltLoggerSeesLaterTargets | Configuration/LoggerBuilder.cs:46-49 | A built logger reaches targets added after `Build`: each of them, at its place after the earlier targets, records the entry exactly when its conditions admit it. The entry's category is the default category at build time. |
| LoggerBuilder.DefaultBuilderGatesAtInfo | Configuration/LoggerBuilder.cs:8 | A default builder's logger with one sink delivers an Info entry and drops a Debug one. |

## Left out

- Timers, `SemaphoreSlim` and `ConcurrentQueue`: each flush is one atomic step. `Dispose` is modelled as a flush run to completion. In the library that flush is an un-awaited `async void` call followed straight away by disposing the semaphore.
- The fire-and-forget `Log` and the synchronous helpers `Trace` … `Fatal`. They only start `LogAsync` without awaiting it.
- Exceptions thrown while writing a batch, such as the `IOException` of `File.Move` behind `RotatingFileTarget.MoveTargetFree`. `FlushQueue` is `async void` with `try`/`finally` and no `catch` (Targets/RotationFileTarget.cs:48-70), so such an exception escapes to the thread pool and ends the process; the dequeued batch is lost with it.
- Gzip bytes. A `.gz` file holds the text it decompresses to, and how compression ends is an input (`CompressOutcome`).
- `RotatingFileTarget.Compress`: the platform is not modelled. On Windows `File.OpenRead` shares the file for reading only, so the delete at Targets/RotationFileTarget.cs:124 throws while the stream is still open; that is the `DeleteFailed` outcome, which leaves the uncompressed rotated file beside a complete `.gz`.
- `ConsoleTarget`, `JsonFileTarget` with its `JsonFormatter`, and `EnvironmentHelper`. The targets the builder creates (console, file and JSON file) are recording leaves tagged with their kind. This includes `WriteToFile`'s file target: it is not a `FileTarget.Sink`, whose queue and flushing are modelled on their own. Condition predicates are inputs.
- The formatter argument of the file sinks: both model the default formatter.
- `RotatingFileTarget.Create`, `FileTarget.Create`: directory creation is the precondition that the directory part is non-empty.
- `RotatingFileTarget.MoveTargetFree`: `File.Move` without overwrite throws when the rotated name exists. That happens on two rotations within one second. The model makes a free rotated name a precondition of a rotating write instead of modelling the exception.
- `RotatedFiles.Matches`: each `?` matches exactly one character. `Directory.GetFiles` uses Win32 wildcard matching on every platform, where a `?` may also match nothing at the end of a name part; four `?` still cannot take eight digits. The model also compares names case-sensitively, while `Directory.GetFiles` ignores case on Windows and macOS: there a name such as `logs/APP.20250101-000001.LOG` is found by the intended glob, and may be deleted, but not in the model.
- `RotatedFiles.SortNewestFirst`: the model orders ties by listing position. Its contract states order and permutation, not stability.
- `Clock.Ticks` and creation times: a creation time is an ordered number, not a .NET tick count.
- Overflow of the `long` size counter: sizes are unbounded integers.
- `Environment.NewLine` is fixed to `"\n"`.
- `Text.Utf8Count`: a Dafny `char` is a Unicode scalar value, so a lone UTF-16 surrogate, which a C# string may hold and `Encoding.UTF8` writes as the 3-byte U+FFFD, cannot be represented.
- `FileTarget.Dispose`: the library starts the final `async void` flush without awaiting it and disposes `_semaphore` at once (Targets/FileTarget.cs:60-61). When that flush's append finishes, `_semaphore.Release()` runs on a disposed semaphore and throws `ObjectDisposedException` inside `async void`, which ends the process. If a timer flush holds the semaphore at that moment, disposing it drops the waiting `WaitAsync`, and the final batch is never written. The model's "every queued message is in the file" holds only for its sequential reading, where the final flush runs to completion.
- `RotatingFileTarget.Dispose`: the same applies (Targets/RotationFileTarget.cs:68, 169-170). The final flush may crash the process on the disposed semaphore, or never write its batch.
- `PineLogger.FanOut`: call order is a label. Targets are independent values, so the order in which they are called cannot be observed in the model. `order` records the list order that `Select` enumerates in (PineLogger.cs:30, 80-83), and `DisposeEach`, `LogAsync` and `DisposeLogger` carry the same label.
- `PineLogger.LogAsync`: `Task.WhenAll` may let targets run concurrently. The model calls each target's `WriteAsync` once; the order in which `Select` starts them is only the label described under `PineLogger.FanOut`. It also does not model a target's `WriteAsync` or a condition (Targets/ConditionalTarget.cs:7) that throws synchronously: that stops the lazy `Select`, the later targets are never called, and `LogAsync` faults. Model targets record every call and `Verdicts` always answer, so "every target is called once" holds only for targets that do not throw.
- `LoggerBuilder.WriteToFile`: does not model the `ArgumentException` that `new FileTarget` throws (Targets/FileTarget.cs:21) for a path with no directory part, such as `app.log`; the model appends the target for every path. `FileTarget.Create` carries that precondition instead.
- `Text.Upper`: assumes the invariant culture. `Level.ToString().ToUpper()` is culture-sensitive, and under a Turkish culture `Info` becomes `İNFO`.
- `Clock.ClockText`: assumes the invariant culture. In a custom format `:` is the culture's time separator, which is `.` under some cultures.
- `Clock.StampTextRoundTrip`: assumes the invariant culture's Gregorian calendar. A culture with another default calendar writes another year (2568 under Thai).
- `IncludeTimestamp` and `IncludeCategory` have defaults but are never read by the library.
- Object identity of the builder: "returns the same builder" is the same handle.
- Configuration is shared by reference. Builder calls after `Build` stay visible to the built logger, and the model follows that.

## Findings

| source | as written | input that shows it | evidently intended | confidence | as-written member | corrected member |
|---|---|---|---|---|---|---|
| Targets/RotationFileTarget.cs:140 | The cleanup glob is `{stem}.????-??????{ext}*`, four characters before the dash. The stamp of line 91 has eight digits before its dash, so no rotated file ever matches and old rotated files are never deleted. | `logs/app.log`, `maxFiles` = 2, three rotated files `app.20250101-00000{1,2,3}.log`: cleanup keeps all three. | A glob with eight `?` before the dash. Cleanup then keeps the two newest and deletes the oldest, and retention holds after every rotation. | not executed | RetentionFinding.AsWrittenKeepsThreeOfTwo | RetentionFinding.IntendedKeepsTwoNewest |
| Targets/RotationFileTarget.cs:116-124 | `CompressFile` deletes the original at line 124 inside the `await using` scope of the streams opened at lines 118-120. The gzip stream writes its last block and trailer only when disposed, after the delete, and the `catch` at line 126 swallows a failure there. | `logs/app.log` holding `a\n`, compression on, a rotating flush during which the trailer write fails (disk full) with nothing flushed: the rotated file is deleted and its `.gz` decompresses to the empty text. | Dispose the streams before deleting the original, so that any compression failure keeps the original, as the comment at line 128 says. | not executed | RotatingFileTarget.AsWrittenFinalizeLosesText | RotatingFileTarget.RotationLosesNothing |

=== FILE: clock.dfy ===
/**
  `DateTime` values and the two renderings the library uses: `HH:mm:ss.fff`
  in every formatted line and `yyyyMMdd-HHmmss` in rotated file names.
  Both are rendered as the invariant culture renders them.
  Reading the clock (`DateTime.Now`) is an input of every operation that
  needs the time.
*/
module Clock {
  import opened Text

  /** A local date and time, down to the millisecond. */
  datatype DateTime = DateTime(year: nat, month: nat, day: nat,
                               hour: nat, minute: nat, second: nat, millisecond: nat)
  {
    /** The component ranges every .NET `DateTime` satisfies. */
    predicate Valid() {
      && 1 <= year <= 9999 && 1 <= month <= 12 && 1 <= day <= 31
      && hour < 24 && minute < 60 && second < 60 && millisecond < 1000
    }
  }

  /** `ToString("HH:mm:ss.fff")` under the invariant culture, whose time separator is `:`. */
  function ClockText(t: DateTime): (s: string)
    ensures |s| == 12 && s[2] == ':' && s[5] == ':' && s[8] == '.'
  {
    Decimal(t.hour, 2) + ":" + Decimal(t.minute, 2) + ":" + Decimal(t.second, 2) + "." + Decimal(t.millisecond, 3)
  }

  /** The hour, minute, second and millisecond can be read back from a valid time's clock text. */
  lemma ClockTextRoundTrip(t: DateTime)
    requires t.Valid()
    ensures DecimalValue(ClockText(t)[..2]) == t.hour && DecimalValue(ClockText(t)[3..5]) == t.minute
    ensures DecimalValue(ClockText(t)[6..8]) == t.second && DecimalValue(ClockText(t)[9..]) == t.millisecond
  {
    var hh, mm, ss, fff := Decimal(t.hour, 2), Decimal(t.minute, 2), Decimal(t.second, 2), Decimal(t.millisecond, 3);
    var tail := ss + "." + fff;
    var mid := mm + ":" + tail;
    var s := hh + ":" + mid;
    assert ClockText(t) == s;
    assert s[..2] == hh && s[3..] == mid;
    assert mid[..2] == mm && mid[3..] == tail;
    assert tail[..2] == ss && tail[3..] == fff;
    assert s[3..5] == mid[..2];
    assert s[6..8] == tail[..2];
    assert s[9..] == tail[3..];
    assert Pow10(2) == 100 && Pow10(3) == 1000;
    DecimalExact(t.hour, 2);
    DecimalExact(t.minute, 2);
    DecimalExact(t.second, 2);
    DecimalExact(t.millisecond, 3);
  }

  /** The shape of a `yyyyMMdd-HHmmss` stamp: eight digits, a dash, six digits. */
  predicate StampShape(s: string) {
    && |s| == 15 && s[8] == '-'
    && (forall i :: 0 <= i < 8 ==> IsDigit(s[i]))
    && (forall i :: 9 <= i < 15 ==> IsDigit(s[i]))
  }

  /** `ToString("yyyyMMdd-HHmmss")` under the invariant culture (Gregorian calendar): always the stamp shape. */
  function StampText(t: DateTime): (s: string)
    ensures StampShape(s)
  {
    var date := Decimal(t.year, 4) + Decimal(t.month, 2) + Decimal(t.day, 2);
    var time := Decimal(t.hour, 2) + Decimal(t.minute, 2) + Decimal(t.second, 2);
    assert forall i :: 0 <= i < 8 ==> IsDigit(date[i]);
    assert forall i :: 0 <= i < 6 ==> IsDigit(time[i]);
    var s := date + "-" + time;
    assert forall i :: 9 <= i < 15 ==> s[i] == time[i - 9];
    s
  }

  /** The date and time, to the second, can be read back from a valid time's stamp. */
  lemma StampTextRoundTrip(t: DateTime)
    requires t.Valid()
    ensures DecimalValue(StampText(t)[..4]) == t.year
    ensures DecimalValue(StampText(t)[4..6]) == t.month && DecimalValue(StampText(t)[6..8]) == t.day
    ensures DecimalValue(StampText(t)[9..11]) == t.hour && DecimalValue(StampText(t)[11..13]) == t.minute
    ensures DecimalValue(StampText(t)[13..]) == t.second
  {
    var yyyy, mo, dd := Decimal(t.year, 4), Decimal(t.month, 2), Decimal(t.day, 2);
    var hh, mi, ss := Decimal(t.hour, 2), Decimal(t.minute, 2), Decimal(t.second, 2);
    var date := yyyy + mo + dd;
    var time := hh + mi + ss;
    var s := date + "-" + time;
    assert StampText(t) == s;
    assert s[..8] == date && s[9..] == time;
    assert date[..4] == yyyy && date[4..6] == mo && date[6..] == dd;
    assert time[..2] == hh && time[2..4] == mi && time[4..] == ss;
    assert s[..4] == date[..4] && s[4..6] == date[4..6] && s[6..8] == date[6..];
    assert s[9..11] == time[..2] && s[11..13] == time[2..4] && s[13..] == time[4..];
    assert Pow10(2) == 100 && Pow10(4) == 10000;
    DecimalExact(t.year, 4);
    DecimalExact(t.month, 2);
    DecimalExact(t.day, 2);
    DecimalExact(t.hour, 2);
    DecimalExact(t.minute, 2);
    DecimalExact(t.second, 2);
  }

  /** A point in time as one number that orders like the clock; the model stores it as a file's creation time. */
  function Ticks(t: DateTime): int
  {
    ((((((t.year * 13 + t.month) * 32 + t.day) * 24 + t.hour) * 60 + t.minute) * 60 + t.second) * 1000) + t.millisecond
  }
}

=== FILE: configuration.dfy ===
/**
  `PineConfiguration`: the mutable record a builder fills in and every logger
  derived from it reads. Because loggers and builders share one
  configuration object by reference, configurations live in a `Store`
  indexed by handle, and builders and loggers hold a handle into it.
*/
module Configuration {
  import opened Wrappers
  import opened LogEntries
  import opened Targets

  datatype PineConfiguration = PineConfiguration(
    minimumLevel: LogLevel,
    targets: seq<Target>,
    includeTimestamp: bool,
    includeCategory: bool,
    defaultCategory: Option<string>)

  /** A handle to a configuration object. */
  type ConfigRef = nat

  /** All configuration objects that exist, by handle. */
  type Store = seq<PineConfiguration>

  /** The property initialisers: level Info, no targets, both flags set, no default category. */
  function Defaults(): (c: PineConfiguration)
    ensures c.minimumLevel == Info
    ensures c.targets == []
    ensures c.includeTimestamp && c.includeCategory
    ensures c.defaultCategory == None
  {
    PineConfiguration(Info, [], true, true, None)
  }

  /** Only the configuration behind `ref` may differ between `before` and `after`. */
  predicate OnlyChanged(before: Store, after: Store, ref: ConfigRef) {
    |after| == |before| && forall k :: 0 <= k < |before| && k != ref ==> after[k] == before[k]
  }
}

=== FILE: default_formatter.dfy ===
/**
  `DefaultFormatter.Format`: one entry to one line of text (more lines when
  an exception or properties follow). No trailing newline is added; the file
  sinks add it when they write.
*/
module DefaultFormatter {
  import opened Text
  import opened Clock
  import opened LogEntries

  /** `[HH:mm:ss.fff] [LEVEL] `. */
  function Header(e: LogEntry): string {
    "[" + ClockText(e.timestamp) + "] [" + Upper(e.level.Name()) + "] "
  }

  /** `string.IsNullOrEmpty(entry.Category)` is false. */
  predicate HasCategory(e: LogEntry) {
    e.category.Some? && e.category.value != ""
  }

  /** `entry.Properties?.Count > 0`. */
  predicate HasProperties(e: LogEntry) {
    e.properties.Some? && |e.properties.value| > 0
  }

  /** `  key: value` for every property, with nothing between them. */
  function PropertyText(ps: seq<Property>): string {
    if ps == [] then "" else "  " + ps[0].key + ": " + ps[0].value + PropertyText(ps[1..])
  }

  function CategoryPart(e: LogEntry): string {
    if HasCategory(e) then "[" + e.category.value + "] " else ""
  }

  function ExceptionPart(e: LogEntry): string {
    if e.exception.Some? then NewLine + e.exception.value.rendering else ""
  }

  function PropertiesPart(e: LogEntry): string {
    if HasProperties(e) then NewLine + PropertyText(e.properties.value) else ""
  }

  /** Where the message starts in the formatted text. */
  function MessageStart(e: LogEntry): nat {
    |Header(e)| + (if HasCategory(e) then |e.category.value| + 3 else 0)
  }

  /**
    The formatted entry: the header first; the bracketed category next exactly
    when there is a non-empty one; then the message; then a newline and the
    exception's rendering exactly when there is an exception; then a newline and
    the properties exactly when there are some.
  */
  function Format(e: LogEntry): (r: string)
    ensures |r| == MessageStart(e) + |e.message| + |ExceptionPart(e)| + |PropertiesPart(e)|
    ensures Header(e) <= r
    ensures HasCategory(e) ==> r[|Header(e)|..MessageStart(e)] == "[" + e.category.value + "] "
    ensures r[MessageStart(e)..MessageStart(e) + |e.message|] == e.message
    ensures var rest := r[MessageStart(e) + |e.message|..];
            && (e.exception.Some? ==> NewLine + e.exception.value.rendering <= rest)
            && (e.exception.None? ==> rest == PropertiesPart(e))
    ensures HasProperties(e) ==> |r| >= |PropertyText(e.properties.value)| + 1
    ensures HasProperties(e) ==> r[|r| - |PropertyText(e.properties.value)| - 1..] == NewLine + PropertyText(e.properties.value)
    ensures !HasProperties(e) && e.exception.Some? ==> r[MessageStart(e) + |e.message|..] == NewLine + e.exception.value.rendering
    ensures !HasProperties(e) && e.exception.None? ==> |r| == MessageStart(e) + |e.message|
  {
    var head := Header(e) + CategoryPart(e);
    var tail := ExceptionPart(e) + PropertiesPart(e);
    var r := head + e.message + tail;
    assert |head| == MessageStart(e);
    assert r[..|Header(e)|] == Header(e);
    assert r[|Header(e)|..MessageStart(e)] == CategoryPart(e);
    assert r[MessageStart(e)..MessageStart(e) + |e.message|] == e.message;
    assert r[MessageStart(e) + |e.message|..] == tail;
    r
  }

  /** The formatter adds no newline of its own when there is neither an exception nor properties. */
  lemma PlainEntryIsOneLine(e: LogEntry)
    requires e.exception.None? && !HasProperties(e)
    ensures Format(e) == Header(e) + CategoryPart(e) + e.message
  {
    var r := Format(e);
    var head := Header(e) + CategoryPart(e);
    assert r[..MessageStart(e)] == head by {
      assert head <= r by {
        assert r[..|Header(e)|] == Header(e);
        assert r[|Header(e)|..MessageStart(e)] == CategoryPart(e);
      }
    }
    assert r == r[..MessageStart(e)] + r[MessageStart(e)..];
  }

  /**
    Two entries that agree on everything but the message format differently
    whenever their messages differ: the message can be read back from the text.
  */
  lemma MessageIsRecoverable(e1: LogEntry, e2: LogEntry)
    requires e1.(message := e2.message) == e2
    requires Format(e1) == Format(e2)
    ensures e1 == e2
  {
    var start := MessageStart(e1);
    assert start == MessageStart(e2);
    assert ExceptionPart(e1) == ExceptionPart(e2) && PropertiesPart(e1) == PropertiesPart(e2);
    assert |e1.message| == |e2.message|;
    assert e1.message == Format(e1)[start..start + |e1.message|] == e2.message;
  }
}

=== FILE: file_system.dfy ===
/**
  The file system the sinks see, as a value: a map from path to the file's
  text and creation time. Only the operations the sinks use are modelled.
*/
module FileSystem {

  /** A file's location: its directory and its name within that directory. */
  datatype Path = Path(dir: string, name: string)

  /**
    A file's contents and creation time. A `.gz` file is represented by the
    text it decompresses to; the compressed bytes themselves are not modelled.
  */
  datatype FileEntry = FileEntry(text: string, created: int)

  type Fs = map<Path, FileEntry>

  /** The text of a file, or the empty text when it does not exist. */
  function TextOf(fs: Fs, p: Path): string {
    if p in fs then fs[p].text else ""
  }

  /** Every path outside `changed` exists in `after` exactly when it did before, with the same entry. */
  predicate SameOutside(before: Fs, after: Fs, changed: set<Path>) {
    && (forall q :: q in before && q !in changed ==> q in after)
    && (forall q :: q in after && q !in changed ==> q in before && after[q] == before[q])
  }

  lemma SameOutsideTrans(a: Fs, b: Fs, c: Fs, changed: set<Path>)
    requires SameOutside(a, b, changed) && SameOutside(b, c, changed)
    ensures SameOutside(a, c, changed)
  {
  }

  /** Two changes in a row change at most the union of what each changes. */
  lemma SameOutsideCompose(a: Fs, b: Fs, c: Fs, x: set<Path>, y: set<Path>)
    requires SameOutside(a, b, x) && SameOutside(b, c, y)
    ensures SameOutside(a, c, x + y)
  {
  }

  /** `File.AppendAllText`: the file gains `s` at its end, and is created at `now` if it was absent. */
  function Append(fs: Fs, p: Path, s: string, now: int): (r: Fs)
    ensures p in r && r[p].text == TextOf(fs, p) + s
    ensures r[p].created == (if p in fs then fs[p].created else now)
    ensures SameOutside(fs, r, {p})
  {
    fs[p := FileEntry(TextOf(fs, p) + s, if p in fs then fs[p].created else now)]
  }

  /** `File.Move` without overwrite: the entry, creation time included, changes its path. */
  function Move(fs: Fs, from: Path, to: Path): (r: Fs)
    requires from in fs && to !in fs
    ensures from !in r && to in r && r[to] == fs[from]
    ensures SameOutside(fs, r, {from, to})
  {
    (fs - {from})[to := fs[from]]
  }
}

=== FILE: file_target.dfy ===
/**
  `FileTarget`: formatted messages are queued by `WriteAsync` and appended to
  one file, a line each, by the periodic flush. Each flush is one atomic
  step here; the timer and the semaphore that serialise flushes are not
  modelled.
*/
module FileTarget {
  import opened Text
  import opened FileSystem
  import opened LogEntries
  import DefaultFormatter

  /** The sink's pending queue, its file, and the file system it writes to. */
  datatype Sink = Sink(path: Path, queue: seq<string>, fs: Fs)

  /** The constructor. It creates the file's directory, so the directory part must not be empty. */
  function Create(path: Path, fs: Fs): (s: Sink)
    requires path.dir != ""
    ensures s.path == path && s.queue == [] && s.fs == fs
  {
    Sink(path, [], fs)
  }

  /** Queueing one formatted message: it goes to the end of the queue and no file changes. */
  function Accept(s: Sink, message: string): (r: Sink)
    ensures r.queue == s.queue + [message]
    ensures r.path == s.path && r.fs == s.fs
  {
    s.(queue := s.queue + [message])
  }

  /** `WriteAsync` with the default formatter. */
  function WriteAsync(s: Sink, e: LogEntry): (r: Sink)
    ensures r.queue == s.queue + [DefaultFormatter.Format(e)]
    ensures r.path == s.path && r.fs == s.fs
  {
    Accept(s, DefaultFormatter.Format(e))
  }

  /**
    `FlushQueue`: the whole queue is drained as one batch and appended, a
    line per message, to the file. An empty queue touches no file.
  */
  function Flush(s: Sink, now: int): (r: Sink)
    ensures r.queue == [] && r.path == s.path
    ensures s.queue == [] ==> r == s
    ensures s.queue != [] ==> r.path in r.fs && r.fs[r.path].text == TextOf(s.fs, s.path) + Lines(s.queue)
    ensures SameOutside(s.fs, r.fs, {s.path})
  {
    if s.queue == [] then s
    else s.(queue := [], fs := Append(s.fs, s.path, Lines(s.queue), now))
  }

  /** `Dispose`: one final flush, run to completion in this sequential model. */
  function Dispose(s: Sink, now: int): (r: Sink)
    ensures r.queue == [] && r.path == s.path
    ensures TextOf(r.fs, r.path) == TextOf(s.fs, s.path) + Lines(s.queue)
  {
    Flush(s, now)
  }

  /** One thing that can happen to the sink: a message is accepted, or the timer flushes. */
  datatype Step = Enqueue(message: string) | Tick(now: int)

  function Apply(s: Sink, step: Step): Sink {
    match step
    case Enqueue(m) => Accept(s, m)
    case Tick(now) => Flush(s, now)
  }

  function Run(s: Sink, steps: seq<Step>): Sink
    decreases |steps|
  {
    if steps == [] then s else Run(Apply(s, steps[0]), steps[1..])
  }

  /** The messages a run accepts, in acceptance order. */
  function Accepted(steps: seq<Step>): seq<string> {
    if steps == [] then []
    else (if steps[0].Enqueue? then [steps[0].message] else []) + Accepted(steps[1..])
  }

  /**
    FIFO, no loss: whatever the interleaving of accepts and flushes, the
    file's text followed by the queued lines is the starting text, the
    starting queue and then every accepted message, in acceptance order.
    No other file changes.
  */
  lemma {:induction false} NoLoss(s: Sink, steps: seq<Step>)
    ensures Run(s, steps).path == s.path
    ensures TextOf(Run(s, steps).fs, s.path) + Lines(Run(s, steps).queue)
         == TextOf(s.fs, s.path) + Lines(s.queue) + Lines(Accepted(steps))
    ensures SameOutside(s.fs, Run(s, steps).fs, {s.path})
    decreases |steps|
  {
    if steps == [] {
      assert Accepted(steps) == [];
    } else {
      var p, s1, rest := s.path, Apply(s, steps[0]), steps[1..];
      assert Run(s, steps) == Run(s1, rest);
      FlushOrAcceptShift(s, steps[0]);
      NoLoss(s1, rest);
      SameOutsideTrans(s.fs, s1.fs, Run(s1, rest).fs, {p});
      AcceptedCons(steps);
      LinesAppend(Accepted([steps[0]]), Accepted(rest));
    }
  }

  /** What a run accepts is what its first step accepts, then what the rest accepts. */
  lemma AcceptedCons(steps: seq<Step>)
    requires steps != []
    ensures Accepted(steps) == Accepted([steps[0]]) + Accepted(steps[1..])
  {
    assert [steps[0]][1..] == [];
  }

  /** One step moves text between the queue and the file without losing or reordering any. */
  lemma FlushOrAcceptShift(s: Sink, step: Step)
    ensures Apply(s, step).path == s.path
    ensures TextOf(Apply(s, step).fs, s.path) + Lines(Apply(s, step).queue)
         == TextOf(s.fs, s.path) + Lines(s.queue) + Lines(Accepted([step]))
    ensures SameOutside(s.fs, Apply(s, step).fs, {s.path})
  {
    assert [step][1..] == [];
    match step
    case Enqueue(m) =>
      LinesAppend(s.queue, [m]);
      assert Accepted([step]) == [m];
    case Tick(now) =>
      assert Accepted([step]) == [];
  }

  /** Disposing after any run leaves every accepted message in the file, in order. */
  lemma DisposeWritesEverything(s: Sink, steps: seq<Step>, now: int)
    requires s.queue == []
    ensures TextOf(Dispose(Run(s, steps), now).fs, s.path) == TextOf(s.fs, s.path) + Lines(Accepted(steps))
  {
    NoLoss(s, steps);
  }
}

=== FILE: log_entry.dfy ===
/**
  The values that flow from the logger to its targets: `LogLevel` and the
  immutable `LogEntry` record.
*/
module LogEntries {
  import opened Wrappers
  import opened Clock

  /** `LogLevel`, in declaration order: Trace < Debug < Info < Warning < Error < Fatal. */
  datatype LogLevel = Trace | Debug | Info | Warning | Error | Fatal
  {
    /** The enum's underlying value, which C#'s `<` on levels compares. */
    function Ordinal(): nat
    {
      match this
      case Trace => 0
      case Debug => 1
      case Info => 2
      case Warning => 3
      case Error => 4
      case Fatal => 5
    }

    /** `ToString()`: the member's name. */
    function Name(): string
    {
      match this
      case Trace => "Trace"
      case Debug => "Debug"
      case Info => "Info"
      case Warning => "Warning"
      case Error => "Error"
      case Fatal => "Fatal"
    }
  }

  /** `a < b` on levels. */
  predicate Below(a: LogLevel, b: LogLevel) {
    a.Ordinal() < b.Ordinal()
  }

  /** An exception, of which the library only ever uses the `ToString()` rendering. */
  datatype Exception = Exception(rendering: string)

  /** One entry of a properties dictionary, its value already rendered by `ToString()`. */
  datatype Property = Property(key: string, value: string)

  /**
    `LogEntry`. Nullable fields are options; the properties dictionary is the
    sequence of its entries in enumeration order.
  */
  datatype LogEntry = LogEntry(
    timestamp: DateTime,
    level: LogLevel,
    message: string,
    category: Option<string>,
    exception: Option<Exception>,
    properties: Option<seq<Property>>)
}

=== FILE: logger_builder.dfy ===
/**
  `LoggerBuilder`: a handle to one configuration object, updated in place by
  fluent calls that each return the same builder. `Build` hands that very
  object to the logger, so later builder calls remain visible to it.
*/
module LoggerBuilder {
  import opened Wrappers
  import opened LogEntries
  import opened Targets
  import opened Configuration
  import opened PineLogger

  datatype Builder = Builder(config: ConfigRef)

  /** The store after a builder call, and the builder the call returned. */
  datatype Built = Built(store: Store, builder: Builder)

  /** `PineLogger.Create()`, i.e. `new LoggerBuilder()`: a fresh configuration object with the defaults. */
  function New(store: Store): (r: Built)
    ensures |r.store| == |store| + 1 && r.store[..|store|] == store
    ensures r.builder.config == |store| && r.store[r.builder.config] == Defaults()
  {
    Built(store + [Defaults()], Builder(|store|))
  }

  /** `MinimumLevel`: sets the level and nothing else. */
  function MinimumLevel(store: Store, b: Builder, level: LogLevel): (r: Built)
    requires b.config < |store|
    ensures r.builder == b && OnlyChanged(store, r.store, b.config)
    ensures r.store[b.config] == store[b.config].(minimumLevel := level)
  {
    Built(store[b.config := store[b.config].(minimumLevel := level)], b)
  }

  /** `WithDefaultCategory`: sets the default category and nothing else. */
  function WithDefaultCategory(store: Store, b: Builder, category: string): (r: Built)
    requires b.config < |store|
    ensures r.builder == b && OnlyChanged(store, r.store, b.config)
    ensures r.store[b.config] == store[b.config].(defaultCategory := Some(category))
  {
    Built(store[b.config := store[b.config].(defaultCategory := Some(category))], b)
  }

  /** `AddTarget`: appends one target at the end; earlier targets and every other setting are kept. */
  function AddTarget(store: Store, b: Builder, t: Target): (r: Built)
    requires b.config < |store|
    ensures r.builder == b && OnlyChanged(store, r.store, b.config)
    ensures r.store[b.config].targets == store[b.config].targets + [t]
    ensures r.store[b.config] == store[b.config].(targets := r.store[b.config].targets)
  {
    var c := store[b.config];
    Built(store[b.config := c.(targets := c.targets + [t])], b)
  }

  /** `WriteToConsole`: appends a console target with the given formatter. */
  function WriteToConsole(store: Store, b: Builder, formatter: FormatterChoice): (r: Built)
    requires b.config < |store|
    ensures r.builder == b && OnlyChanged(store, r.store, b.config)
    ensures r.store[b.config].targets == store[b.config].targets + [Leaf(Console(formatter), [])]
    ensures r.store[b.config] == store[b.config].(targets := r.store[b.config].targets)
  {
    AddTarget(store, b, Leaf(Console(formatter), []))
  }

  /** `WriteToFile`: appends a file target for `path` with the given formatter. */
  function WriteToFile(store: Store, b: Builder, path: string, formatter: FormatterChoice): (r: Built)
    requires b.config < |store|
    ensures r.builder == b && OnlyChanged(store, r.store, b.config)
    ensures r.store[b.config].targets == store[b.config].targets + [Leaf(File(path, formatter), [])]
    ensures r.store[b.config] == store[b.config].(targets := r.store[b.config].targets)
  {
    AddTarget(store, b, Leaf(File(path, formatter), []))
  }

  /** `WriteToJsonFile`: appends a JSON file target for `path`. */
  function WriteToJsonFile(store: Store, b: Builder, path: string): (r: Built)
    requires b.config < |store|
    ensures r.builder == b && OnlyChanged(store, r.store, b.config)
    ensures r.store[b.config].targets == store[b.config].targets + [Leaf(JsonFile(path), [])]
    ensures r.store[b.config] == store[b.config].(targets := r.store[b.config].targets)
  {
    AddTarget(store, b, Leaf(JsonFile(path), []))
  }

  /** `Build`: a logger over the builder's own configuration object, with no category of its own. */
  function Build(store: Store, b: Builder): (l: Logger)
    requires b.config < |store|
    ensures l.config == b.config
    ensures l.category == store[b.config].defaultCategory
  {
    Construct(store, b.config, None)
  }

  /** One fluent call. */
  datatype Op =
    | SetMinimumLevel(level: LogLevel)
    | ToConsole(formatter: FormatterChoice)
    | ToFile(path: string, formatter: FormatterChoice)
    | ToJsonFile(path: string)
    | SetDefaultCategory(category: string)
    | Add(target: Target)

  function ApplyOp(store: Store, b: Builder, op: Op): (r: Built)
    requires b.config < |store|
    ensures r.builder == b && |r.store| == |store|
  {
    match op
    case SetMinimumLevel(level) => MinimumLevel(store, b, level)
    case ToConsole(formatter) => WriteToConsole(store, b, formatter)
    case ToFile(path, formatter) => WriteToFile(store, b, path, formatter)
    case ToJsonFile(path) => WriteToJsonFile(store, b, path)
    case SetDefaultCategory(category) => WithDefaultCategory(store, b, category)
    case Add(target) => AddTarget(store, b, target)
  }

  /** A chain of fluent calls on one builder. */
  function ApplyAll(store: Store, b: Builder, ops: seq<Op>): (r: Built)
    requires b.config < |store|
    ensures r.builder == b && |r.store| == |store|
    decreases |ops|
  {
    if ops == [] then Built(store, b) else ApplyAll(ApplyOp(store, b, ops[0]).store, b, ops[1..])
  }

  /** The target a call appends, if any. */
  function TargetOf(op: Op): seq<Target> {
    match op
    case ToConsole(formatter) => [Leaf(Console(formatter), [])]
    case ToFile(path, formatter) => [Leaf(File(path, formatter), [])]
    case ToJsonFile(path) => [Leaf(JsonFile(path), [])]
    case Add(target) => [target]
    case _ => []
  }

  /** The targets a chain of calls appends, in call order. */
  function AddedTargets(ops: seq<Op>): seq<Target> {
    if ops == [] then [] else TargetOf(ops[0]) + AddedTargets(ops[1..])
  }

  /** The level the last `MinimumLevel` call of the chain sets, or `current` when there is none. */
  function LastLevel(ops: seq<Op>, current: LogLevel): LogLevel {
    if ops == [] then current
    else LastLevel(ops[1..], if ops[0].SetMinimumLevel? then ops[0].level else current)
  }

  /** The category the last `WithDefaultCategory` call of the chain sets, or `current` when there is none. */
  function LastCategory(ops: seq<Op>, current: Option<string>): Option<string> {
    if ops == [] then current
    else LastCategory(ops[1..], if ops[0].SetDefaultCategory? then Some(ops[0].category) else current)
  }

  /**
    Any chain of builder calls changes only the builder's configuration: the
    target list grows at the end by exactly the targets the calls add, in
    order; the last level and the last default category set win; the two
    flags are never touched.
  */
  lemma {:induction false} ApplyAllEffect(store: Store, b: Builder, ops: seq<Op>)
    requires b.config < |store|
    ensures OnlyChanged(store, ApplyAll(store, b, ops).store, b.config)
    ensures ApplyAll(store, b, ops).store[b.config].targets == store[b.config].targets + AddedTargets(ops)
    ensures ApplyAll(store, b, ops).store[b.config].minimumLevel == LastLevel(ops, store[b.config].minimumLevel)
    ensures ApplyAll(store, b, ops).store[b.config].defaultCategory == LastCategory(ops, store[b.config].defaultCategory)
    ensures ApplyAll(store, b, ops).store[b.config].includeTimestamp == store[b.config].includeTimestamp
    ensures ApplyAll(store, b, ops).store[b.config].includeCategory == store[b.config].includeCategory
    decreases |ops|
  {
    if ops == [] {
      assert AddedTargets(ops) == [];
    } else {
      var s1 := ApplyOp(store, b, ops[0]).store;
      ApplyOpEffect(store, b, ops[0]);
      ApplyAllEffect(s1, b, ops[1..]);
      assert AddedTargets(ops) == TargetOf(ops[0]) + AddedTargets(ops[1..]);
    }
  }

  /** One call: the targets grow by what it adds, and the level and category change only when it sets them. */
  lemma ApplyOpEffect(store: Store, b: Builder, op: Op)
    requires b.config < |store|
    ensures OnlyChanged(store, ApplyOp(store, b, op).store, b.config)
    ensures var c, c1 := store[b.config], ApplyOp(store, b, op).store[b.config];
            && c1.targets == c.targets + TargetOf(op)
            && c1.minimumLevel == (if op.SetMinimumLevel? then op.level else c.minimumLevel)
            && c1.defaultCategory == (if op.SetDefaultCategory? then Some(op.category) else c.defaultCategory)
            && c1.includeTimestamp == c.includeTimestamp && c1.includeCategory == c.includeCategory
  {
  }

  /**
    The built logger reads the live configuration: an entry logged after
    further builder calls reaches every target, including those added after
    `Build`, while the logger's category stays the default category as it
    was when the logger was built.
  */
  lemma BuiltLoggerSeesLaterTargets(store: Store, b: Builder, ops: seq<Op>, level: LogLevel, message: string,
                                    exception: Option<Exception>, properties: Option<seq<Property>>,
                                    now: Clock.DateTime, v: Verdicts)
    requires b.config < |store|
    requires Passes(ApplyAll(store, b, ops).store[b.config], level)
    ensures Build(store, b).category == store[b.config].defaultCategory
    ensures var l := Build(store, b);
            var r := LogAsync(ApplyAll(store, b, ops).store, l, level, message, exception, properties, now, v);
            var e := LogEntry(now, level, message, store[b.config].defaultCategory, exception, properties);
            ReachedAppended(r.store[b.config].targets, |store[b.config].targets|, AddedTargets(ops), e, v)
  {
    var r := LogAsync(ApplyAll(store, b, ops).store, Build(store, b), level, message, exception, properties, now, v);
    var e := LogEntry(now, level, message, store[b.config].defaultCategory, exception, properties);
    BuiltLoggerDelivers(store, b, ops, level, message, exception, properties, now, v);
    DeliveredToAppended(store[b.config].targets, AddedTargets(ops), r.store[b.config].targets, e, v);
  }

  /** The delivery step of `BuiltLoggerSeesLaterTargets`: the live target list is the old one plus the added ones. */
  lemma BuiltLoggerDelivers(store: Store, b: Builder, ops: seq<Op>, level: LogLevel, message: string,
                            exception: Option<Exception>, properties: Option<seq<Property>>,
                            now: Clock.DateTime, v: Verdicts)
    requires b.config < |store|
    requires Passes(ApplyAll(store, b, ops).store[b.config], level)
    ensures Delivered(store[b.config].targets + AddedTargets(ops),
                      LogAsync(ApplyAll(store, b, ops).store, Build(store, b), level, message, exception, properties, now, v)
                        .store[b.config].targets,
                      LogEntry(now, level, message, store[b.config].defaultCategory, exception, properties), true, v)
  {
    var s1 := ApplyAll(store, b, ops).store;
    ApplyAllEffect(store, b, ops);
    assert s1[b.config].targets == store[b.config].targets + AddedTargets(ops);
  }

  /**
    After a delivery, the targets from position `n` on are the `added` ones,
    each of which recorded `e` exactly when its conditions admitted it.
  */
  predicate ReachedAppended(after: seq<Target>, n: nat, added: seq<Target>, e: LogEntry, v: Verdicts) {
    && |after| == n + |added|
    && forall j :: 0 <= j < |added| ==>
         Calls(after[n + j]) == Calls(added[j]) + (if Admits(added[j], v) then [WriteCall(e)] else [])
  }

  /** A delivery to a list with targets appended reaches each appended target at its place after the others. */
  lemma DeliveredToAppended(front: seq<Target>, added: seq<Target>, after: seq<Target>, e: LogEntry, v: Verdicts)
    requires Delivered(front + added, after, e, true, v)
    ensures ReachedAppended(after, |front|, added, e, v)
  {
    forall j | 0 <= j < |added|
      ensures Calls(after[|front| + j]) == Calls(added[j]) + (if Admits(added[j], v) then [WriteCall(e)] else [])
    {
      assert (front + added)[|front| + j] == added[j];
    }
  }

  /** A fresh default builder with one added plain target delivers Info but drops Debug. */
  lemma DefaultBuilderGatesAtInfo(store: Store, t: Target, message: string, now: Clock.DateTime, v: Verdicts)
    requires t.Leaf?
    ensures var r := AddTarget(New(store).store, New(store).builder, t);
            var l := Build(r.store, r.builder);
            Calls(InfoAsync(r.store, l, message, None, now, v).store[l.config].targets[0])
              == Calls(t) + [WriteCall(LogEntry(now, Info, message, None, None, None))]
            && DebugAsync(r.store, l, message, None, now, v).store == r.store
  {
    var r := AddTarget(New(store).store, New(store).builder, t);
    var l := Build(r.store, r.builder);
    assert r.store[l.config].targets == [t] && l.category == None;
    assert Passes(r.store[l.config], Info) && !Passes(r.store[l.config], Debug);
    var d := InfoAsync(r.store, l, message, None, now, v);
    assert Delivered([t], d.store[l.config].targets, LogEntry(now, Info, message, None, None, None), true, v);
    assert Admits(t, v);
  }
}

=== FILE: pine_logger.dfy ===
/**
  `PineLogger`: the facade. A logger holds a handle to its (shared)
  configuration and the category it fixed at construction. Logging gates on
  the configuration's minimum level as it is at the time of the call, builds
  one entry, and hands it to every configured target.
  `DateTime.Now` is the parameter `now`; the conditions' answers are `v`.
*/
module PineLogger {
  import opened Wrappers
  import opened Clock
  import opened LogEntries
  import opened Targets
  import opened Configuration

  datatype Logger = Logger(config: ConfigRef, category: Option<string>)

  /** The `PineLogger` constructor: the given category, or else the configuration's default category as it is now. */
  function Construct(store: Store, config: ConfigRef, category: Option<string>): (l: Logger)
    requires config < |store|
    ensures l.config == config
    ensures category.Some? ==> l.category == category
    ensures category.None? ==> l.category == store[config].defaultCategory
  {
    Logger(config, if category.Some? then category else store[config].defaultCategory)
  }

  /** `ForCategory`: a logger over the same configuration object, with the given category. */
  function ForCategory(store: Store, l: Logger, category: string): (r: Logger)
    requires l.config < |store|
    ensures r.config == l.config
    ensures r.category == Some(category)
  {
    Construct(store, l.config, Some(category))
  }

  /** The level gate: an entry passes unless its level is strictly below the minimum. */
  predicate Passes(c: PineConfiguration, level: LogLevel) {
    !Below(level, c.minimumLevel)
  }

  /** The entry `LogAsync` builds. */
  function Entry(l: Logger, level: LogLevel, message: string, exception: Option<Exception>,
                 properties: Option<seq<Property>>, now: DateTime): (e: LogEntry)
    ensures e.timestamp == now && e.level == level && e.message == message
    ensures e.category == l.category && e.exception == exception && e.properties == properties
  {
    LogEntry(now, level, message, l.category, exception, properties)
  }

  /**
    The targets after a fan-out, and the indices of the targets in the order
    the fan-out enumerates them. Targets are independent values, so that
    order is a label the model records, not something a target observes.
  */
  datatype FanOutResult = FanOutResult(targets: seq<Target>, order: seq<nat>)

  /**
    `config.Targets.Select(target => target.WriteAsync(entry))` enumerated
    by `Task.WhenAll`: each target is called once, with the same entry; the
    enumeration follows the list.
  */
  function FanOut(ts: seq<Target>, e: LogEntry, v: Verdicts): (r: FanOutResult)
    ensures |r.targets| == |ts| && |r.order| == |ts|
    ensures forall i :: 0 <= i < |ts| ==> r.targets[i] == WriteAsync(ts[i], e, v)
    ensures forall i :: 0 <= i < |ts| ==> r.order[i] == i
  {
    if ts == [] then FanOutResult([], [])
    else
      var front := FanOut(ts[..|ts| - 1], e, v);
      FanOutResult(front.targets + [WriteAsync(ts[|ts| - 1], e, v)], front.order + [|ts| - 1])
  }

  /** The effect of a (possibly gated) delivery of `e` on each target, observed as the calls each records. */
  predicate Delivered(before: seq<Target>, after: seq<Target>, e: LogEntry, passes: bool, v: Verdicts) {
    |after| == |before| &&
    forall i :: 0 <= i < |before| ==>
      && after[i] == (if passes then WriteAsync(before[i], e, v) else before[i])
      && SameShape(before[i], after[i])
      && Calls(after[i]) == Calls(before[i]) + (if passes && Admits(before[i], v) then [WriteCall(e)] else [])
  }

  /** The configuration store after a call, and the indices of the targets called, in enumeration order. */
  datatype Delivery = Delivery(store: Store, order: seq<nat>)

  /**
    What logging `e` through `l` does: only the targets of `l`'s
    configuration change; if `e`'s level passes the gate every target is
    called once, and otherwise nothing happens at all.
  */
  predicate Logged(store: Store, l: Logger, e: LogEntry, v: Verdicts, r: Delivery)
    requires l.config < |store|
  {
    var before := store[l.config];
    var passes := Passes(before, e.level);
    OnlyChanged(store, r.store, l.config) &&
    r.store[l.config] == before.(targets := r.store[l.config].targets) &&
    Delivered(before.targets, r.store[l.config].targets, e, passes, v) &&
    (passes ==> |r.order| == |before.targets| && forall i :: 0 <= i < |r.order| ==> r.order[i] == i) &&
    (!passes ==> r.order == [] && r.store == store)
  }

  /** `LogAsync`. */
  function LogAsync(store: Store, l: Logger, level: LogLevel, message: string, exception: Option<Exception>,
                    properties: Option<seq<Property>>, now: DateTime, v: Verdicts): (r: Delivery)
    requires l.config < |store|
    ensures Logged(store, l, Entry(l, level, message, exception, properties, now), v, r)
  {
    var c := store[l.config];
    if Below(level, c.minimumLevel) then SameShapeReflexiveAll(c.targets); Delivery(store, [])
    else
      var f := FanOut(c.targets, Entry(l, level, message, exception, properties, now), v);
      Delivery(store[l.config := c.(targets := f.targets)], f.order)
  }

  /** `TraceAsync`: level Trace, no exception. */
  function TraceAsync(store: Store, l: Logger, message: string, properties: Option<seq<Property>>,
                      now: DateTime, v: Verdicts): (r: Delivery)
    requires l.config < |store|
    ensures Logged(store, l, LogEntry(now, Trace, message, l.category, None, properties), v, r)
  {
    LogAsync(store, l, Trace, message, None, properties, now, v)
  }

  /** `DebugAsync`: level Debug, no exception. */
  function DebugAsync(store: Store, l: Logger, message: string, properties: Option<seq<Property>>,
                      now: DateTime, v: Verdicts): (r: Delivery)
    requires l.config < |store|
    ensures Logged(store, l, LogEntry(now, Debug, message, l.category, None, properties), v, r)
  {
    LogAsync(store, l, Debug, message, None, properties, now, v)
  }

  /** `InfoAsync`: level Info, no exception. */
  function InfoAsync(store: Store, l: Logger, message: string, properties: Option<seq<Property>>,
                     now: DateTime, v: Verdicts): (r: Delivery)
    requires l.config < |store|
    ensures Logged(store, l, LogEntry(now, Info, message, l.category, None, properties), v, r)
  {
    LogAsync(store, l, Info, message, None, properties, now, v)
  }

  /** `WarningAsync`: level Warning, no exception. */
  function WarningAsync(store: Store, l: Logger, message: string, properties: Option<seq<Property>>,
                        now: DateTime, v: Verdicts): (r: Delivery)
    requires l.config < |store|
    ensures Logged(store, l, LogEntry(now, Warning, message, l.category, None, properties), v, r)
  {
    LogAsync(store, l, Warning, message, None, properties, now, v)
  }

  /** `ErrorAsync`: level Error, with the caller's exception. */
  function ErrorAsync(store: Store, l: Logger, message: string, exception: Option<Exception>,
                      properties: Option<seq<Property>>, now: DateTime, v: Verdicts): (r: Delivery)
    requires l.config < |store|
    ensures Logged(store, l, LogEntry(now, Error, message, l.category, exception, properties), v, r)
  {
    LogAsync(store, l, Error, message, exception, properties, now, v)
  }

  /** `FatalAsync`: level Fatal, with the caller's exception. */
  function FatalAsync(store: Store, l: Logger, message: string, exception: Option<Exception>,
                      properties: Option<seq<Property>>, now: DateTime, v: Verdicts): (r: Delivery)
    requires l.config < |store|
    ensures Logged(store, l, LogEntry(now, Fatal, message, l.category, exception, properties), v, r)
  {
    LogAsync(store, l, Fatal, message, exception, properties, now, v)
  }

  /** Every target disposed once; `order` is the enumeration order of the list. */
  function DisposeEach(ts: seq<Target>): (r: FanOutResult)
    ensures |r.targets| == |ts| && |r.order| == |ts|
    ensures forall i :: 0 <= i < |ts| ==> r.targets[i] == Dispose(ts[i])
    ensures forall i :: 0 <= i < |ts| ==>
      && SameShape(ts[i], r.targets[i]) && Evaluations(r.targets[i]) == Evaluations(ts[i])
      && Calls(r.targets[i]) == Calls(ts[i]) + [DisposeCall]
    ensures forall i :: 0 <= i < |ts| ==> r.order[i] == i
  {
    if ts == [] then FanOutResult([], [])
    else
      var front := DisposeEach(ts[..|ts| - 1]);
      FanOutResult(front.targets + [Dispose(ts[|ts| - 1])], front.order + [|ts| - 1])
  }

  /** `Dispose`: disposes every target of the configuration once and touches nothing else. */
  function DisposeLogger(store: Store, l: Logger): (r: Delivery)
    requires l.config < |store|
    ensures OnlyChanged(store, r.store, l.config)
    ensures r.store[l.config] == store[l.config].(targets := r.store[l.config].targets)
    ensures |r.store[l.config].targets| == |store[l.config].targets| == |r.order|
    ensures forall i :: 0 <= i < |r.order| ==>
      && r.order[i] == i
      && r.store[l.config].targets[i] == Dispose(store[l.config].targets[i])
      && SameShape(store[l.config].targets[i], r.store[l.config].targets[i])
      && Evaluations(r.store[l.config].targets[i]) == Evaluations(store[l.config].targets[i])
      && Calls(r.store[l.config].targets[i]) == Calls(store[l.config].targets[i]) + [DisposeCall]
  {
    var c := store[l.config];
    var d := DisposeEach(c.targets);
    Delivery(store[l.config := c.(targets := d.targets)], d.order)
  }

  /** With the default configuration, Trace and Debug entries are dropped and every other level gets through. */
  lemma DefaultsDropTraceAndDebug(level: LogLevel)
    ensures Passes(Defaults(), level) <==> level != Trace && level != Debug
  {
  }

  /** The gate is monotone in the level, and an entry exactly at the minimum level passes. */
  lemma GateIsMonotone(c: PineConfiguration, a: LogLevel, b: LogLevel)
    ensures Passes(c, c.minimumLevel)
    ensures Passes(c, a) && a.Ordinal() <= b.Ordinal() ==> Passes(c, b)
  {
  }

  /**
    A derived logger shares the configuration: logging through it has the
    same effect as logging through the original, except that the entries
    carry the new category.
  */
  lemma ForCategorySharesTargets(store: Store, l: Logger, category: string, level: LogLevel, message: string,
                                 exception: Option<Exception>, properties: Option<seq<Property>>,
                                 now: DateTime, v: Verdicts)
    requires l.config < |store|
    ensures LogAsync(store, ForCategory(store, l, category), level, message, exception, properties, now, v)
         == LogAsync(store, l.(category := Some(category)), level, message, exception, properties, now, v)
  {
  }
}

=== FILE: retention_finding.dfy ===
/**
  A concrete instance of the retention defect: three rotated files named as
  `RotateFile` names them, `maxFiles` = 2. The library's cleanup glob finds
  none of them, so all three stay; the intended glob finds all three and
  deletes the oldest.
*/
module RetentionFinding {
  import opened Wrappers
  import opened FileSystem
  import opened RotatedFiles

  const Dir: string := "logs"
  const FileName: string := "app.log"
  const Oldest: Path := Path("logs", "app.20250101-000001.log")
  const Middle: Path := Path("logs", "app.20250101-000002.log")
  const Newest: Path := Path("logs", "app.20250101-000003.log")
  const Listing: seq<Path> := [Oldest, Middle, Newest]
  const Files: Fs := map[Oldest := FileEntry("1", 1), Middle := FileEntry("2", 2), Newest := FileEntry("3", 3)]

  lemma SplitsAppLog()
    ensures Stem(FileName) == "app" && Extension(FileName) == ".log"
  {
    assert LastDot("app.") == Some(3);
    assert "app.l"[..4] == "app." && LastDot("app.l") == Some(3);
    assert "app.lo"[..5] == "app.l" && LastDot("app.lo") == Some(3);
    assert "app.log"[..6] == "app.lo" && LastDot("app.log") == Some(3);
  }

  lemma RotatedAppLog(stamp: string)
    requires Clock.StampShape(stamp)
    ensures IsRotatedName("app." + stamp + ".log", FileName)
  {
    SplitsAppLog();
    RotatedNameShape(FileName, stamp, "");
    assert RotatedName(FileName, stamp) + "" == "app." + stamp + ".log";
  }

  lemma OldestIsRotated()
    ensures Oldest.dir == Dir && IsRotatedName(Oldest.name, FileName)
  {
    OldestStamp();
    RotatedAppLog("20250101-000001");
  }

  lemma OldestStamp()
    ensures Clock.StampShape("20250101-000001")
    ensures Oldest.name == "app." + "20250101-000001" + ".log"
  {
  }

  lemma MiddleIsRotated()
    ensures Middle.dir == Dir && IsRotatedName(Middle.name, FileName)
  {
    MiddleStamp();
    RotatedAppLog("20250101-000002");
  }

  lemma MiddleStamp()
    ensures Clock.StampShape("20250101-000002")
    ensures Middle.name == "app." + "20250101-000002" + ".log"
  {
  }

  lemma NewestIsRotated()
    ensures Newest.dir == Dir && IsRotatedName(Newest.name, FileName)
  {
    NewestStamp();
    RotatedAppLog("20250101-000003");
  }

  lemma NewestStamp()
    ensures Clock.StampShape("20250101-000003")
    ensures Newest.name == "app." + "20250101-000003" + ".log"
  {
  }

  /** The three example files carry rotated names of `app.log`. */
  lemma ExampleNamesAreRotated()
    ensures forall p :: p in Listing ==> p in Files && p.dir == Dir && IsRotatedName(p.name, FileName)
  {
    OldestIsRotated();
    MiddleIsRotated();
    NewestIsRotated();
  }

  /** When every listed path exists and is in scope, the search finds exactly the listing. */
  lemma {:induction false} FoundWholeListing(fs: Fs, glob: Glob, listing: seq<Path>)
    requires forall p :: p in listing ==> p in fs && InScope(Dir, FileName, glob, p)
    ensures Found(fs, Dir, FileName, glob, listing) == listing
    decreases |listing|
  {
    if listing != [] {
      assert listing[0] in listing;
      FoundWholeListing(fs, glob, listing[1..]);
      assert listing == [listing[0]] + listing[1..];
    }
  }

  /** When no listed path is in scope, the search finds nothing. */
  lemma {:induction false} FoundNothingInListing(fs: Fs, glob: Glob, listing: seq<Path>)
    requires forall p :: p in listing ==> !InScope(Dir, FileName, glob, p)
    ensures Found(fs, Dir, FileName, glob, listing) == []
    decreases |listing|
  {
    if listing != [] {
      assert listing[0] in listing;
      FoundNothingInListing(fs, glob, listing[1..]);
    }
  }

  lemma AsWrittenFindsNothing()
    ensures Found(Files, Dir, FileName, AsWritten, Listing) == []
  {
    ExampleNamesAreRotated();
    forall p | p in Listing ensures !InScope(Dir, FileName, AsWritten, p) {
      AsWrittenMissesRotated(p.name, FileName);
    }
    FoundNothingInListing(Files, AsWritten, Listing);
  }

  lemma IntendedFindsAll()
    ensures Found(Files, Dir, FileName, Intended, Listing) == Listing
  {
    ExampleNamesAreRotated();
    forall p | p in Listing ensures p in Files && InScope(Dir, FileName, Intended, p) {
      IntendedMatchesRotated(p.name, FileName);
    }
    FoundWholeListing(Files, Intended, Listing);
  }

  lemma SortedExample()
    ensures SortNewestFirst(Files, Listing) == [Newest, Middle, Oldest]
  {
    assert Created(Files, Oldest) == 1 && Created(Files, Middle) == 2 && Created(Files, Newest) == 3;
    assert [Newest][1..] == [];
    assert SortNewestFirst(Files, [Newest]) == [Newest];
    assert [Middle, Newest][1..] == [Newest];
    assert InsertByAge(Files, Middle, [Newest]) == [Newest, Middle];
    assert SortNewestFirst(Files, [Middle, Newest]) == [Newest, Middle];
    assert Listing[1..] == [Middle, Newest];
    assert [Newest, Middle][1..] == [Middle];
    assert InsertByAge(Files, Oldest, [Middle]) == [Middle, Oldest];
    assert InsertByAge(Files, Oldest, [Newest, Middle]) == [Newest, Middle, Oldest];
  }

  /** As written: three rotated files, a limit of two, and cleanup deletes nothing. */
  lemma AsWrittenKeepsThreeOfTwo()
    ensures Cleanup(Files, Dir, FileName, AsWritten, 2, Listing, {}) == Files
    ensures |Files| == 3
  {
    AsWrittenFindsNothing();
    assert Oldest != Middle && Middle != Newest && Oldest != Newest;
    assert Files.Keys == {Oldest, Middle, Newest};
  }

  /** The newest-first order of the example, past its first two entries, is the oldest file alone. */
  lemma IntendedDoomsOldest()
    ensures Doomed(Files, Dir, FileName, Intended, 2, Listing) == [Oldest]
  {
    IntendedFindsAll();
    SortedExample();
    DoomedAfterSort(Files, Intended, 2, Listing, Listing, [Newest, Middle, Oldest]);
    SkipTwoOfThree(Newest, Middle, Oldest);
  }

  /** Cleanup's victims are the sorted found files past the first `maxFiles`. */
  lemma DoomedAfterSort(fs: Fs, glob: Glob, maxFiles: int, listing: seq<Path>, found: seq<Path>, sorted: seq<Path>)
    requires Found(fs, Dir, FileName, glob, listing) == found
    requires SortNewestFirst(fs, found) == sorted
    ensures Doomed(fs, Dir, FileName, glob, maxFiles, listing) == Skip(sorted, maxFiles)
  {
  }

  lemma SkipTwoOfThree(a: Path, b: Path, c: Path)
    ensures Skip([a, b, c], 2) == [c]
  {
    assert [a, b, c][2..] == [c];
  }

  /** When exactly one file is doomed and no deletion fails, cleanup removes that file and nothing else. */
  lemma CleanupOfOne(fs: Fs, dir: string, fileName: string, glob: Glob, maxFiles: int,
                     listing: seq<Path>, x: Path)
    requires Doomed(fs, dir, fileName, glob, maxFiles, listing) == [x]
    ensures Cleanup(fs, dir, fileName, glob, maxFiles, listing, {}) == fs - {x}
  {
    assert Deleted([x], {}) == {x};
  }

  /** As intended: the same cleanup keeps the two newest and deletes the oldest. */
  lemma IntendedKeepsTwoNewest()
    ensures Cleanup(Files, Dir, FileName, Intended, 2, Listing, {}) == Files - {Oldest}
  {
    IntendedDoomsOldest();
    CleanupOfOne(Files, Dir, FileName, Intended, 2, Listing, Oldest);
  }
}

=== FILE: rotated_files.dfy ===
/**
  How `RotatingFileTarget` names rotated files and finds them again:
  `System.IO.Path`'s name splitting, the rotated name, the cleanup glob,
  the newest-first ordering and the retention cleanup itself.
*/
module RotatedFiles {
  import opened Wrappers
  import opened Clock
  import opened FileSystem

  /** The index of the last `.` in a file name, if there is one. */
  function LastDot(name: string): (r: Option<nat>)
    ensures r.Some? ==> r.value < |name| && name[r.value] == '.'
    ensures r.Some? ==> forall j :: r.value < j < |name| ==> name[j] != '.'
    ensures r.None? ==> forall j :: 0 <= j < |name| ==> name[j] != '.'
  {
    if name == [] then None
    else if name[|name| - 1] == '.' then Some(|name| - 1)
    else LastDot(name[..|name| - 1])
  }

  /** `Path.GetFileNameWithoutExtension`: the name up to its last dot, or the whole name. */
  function Stem(name: string): string {
    match LastDot(name)
    case None => name
    case Some(i) => name[..i]
  }

  /** `Path.GetExtension`: from the last dot to the end; empty when there is no dot or the dot ends the name. */
  function Extension(name: string): string {
    match LastDot(name)
    case None => ""
    case Some(i) => if i < |name| - 1 then name[i..] else ""
  }

  predicate EndsWithDot(name: string) {
    name != [] && name[|name| - 1] == '.'
  }

  /**
    Stem and extension put back together give the name, except that a final
    dot belongs to neither. A non-empty extension is a dot followed by
    characters other than dots.
  */
  lemma StemAndExtension(name: string)
    ensures EndsWithDot(name) ==> Stem(name) + Extension(name) + "." == name
    ensures !EndsWithDot(name) ==> Stem(name) + Extension(name) == name
    ensures Extension(name) != "" ==> Extension(name)[0] == '.' && |Extension(name)| >= 2
    ensures forall j :: 0 < j < |Extension(name)| ==> Extension(name)[j] != '.'
  {
    match LastDot(name)
    case None =>
    case Some(i) =>
      if i < |name| - 1 {
        assert name[..i] + name[i..] == name;
        forall j | 0 < j < |name[i..]| ensures name[i..][j] != '.' {
          assert name[i..][j] == name[i + j];
        }
      } else {
        assert name[..i] + "." == name;
      }
  }

  /** `{stem}.{stamp}{ext}`: the name a rotation gives the active file. */
  function RotatedName(fileName: string, stamp: string): string {
    Stem(fileName) + "." + stamp + Extension(fileName)
  }

  /** The cleanup glob: as the library writes it, or with the width the stamp actually has. */
  datatype Glob = AsWritten | Intended

  /** How many `?` stand before the `-` of the glob. */
  function Lead(g: Glob): nat {
    match g
    case AsWritten => 4
    case Intended => 8
  }

  /**
    Whether `name` matches `{stem}.` then `lead` question marks, `-`, six
    question marks, `{ext}*`; each `?` stands for exactly one character and
    the final `*` for any tail.
  */
  predicate Matches(name: string, fileName: string, lead: nat) {
    var stem, ext := Stem(fileName), Extension(fileName);
    var k := |stem|;
    && |name| >= k + lead + 8 + |ext|
    && name[..k] == stem
    && name[k] == '.'
    && name[k + 1 + lead] == '-'
    && name[k + lead + 8..k + lead + 8 + |ext|] == ext
  }

  /** A rotated file's name, possibly with a tail such as `.gz`: stem, dot, stamp, extension, anything. */
  predicate IsRotatedName(name: string, fileName: string) {
    var stem, ext := Stem(fileName), Extension(fileName);
    var k := |stem|;
    && |name| >= k + 16 + |ext|
    && name[..k] == stem
    && name[k] == '.'
    && StampShape(name[k + 1..k + 16])
    && name[k + 16..k + 16 + |ext|] == ext
  }

  /** Every rotated name, and every name built on one (the `.gz` of it, say), is a rotated name. */
  lemma RotatedNameShape(fileName: string, stamp: string, tail: string)
    requires StampShape(stamp)
    ensures IsRotatedName(RotatedName(fileName, stamp) + tail, fileName)
  {
    var stem, ext := Stem(fileName), Extension(fileName);
    var name := RotatedName(fileName, stamp) + tail;
    assert name == stem + "." + stamp + ext + tail;
    var k := |stem|;
    assert name[..k] == stem;
    assert name[k + 1..k + 16] == stamp;
    assert name[k + 16..k + 16 + |ext|] == ext;
  }

  /** The glob as written never matches a rotated name: it expects `-` where the stamp has its fifth digit. */
  lemma AsWrittenMissesRotated(name: string, fileName: string)
    requires IsRotatedName(name, fileName)
    ensures !Matches(name, fileName, Lead(AsWritten))
  {
    var k := |Stem(fileName)|;
    assert name[k + 1..k + 16][4] == name[k + 5];
    assert Text.IsDigit(name[k + 5]);
  }

  /** The intended glob matches every rotated name. */
  lemma IntendedMatchesRotated(name: string, fileName: string)
    requires IsRotatedName(name, fileName)
    ensures Matches(name, fileName, Lead(Intended))
  {
    var k := |Stem(fileName)|;
    assert name[k + 1..k + 16][8] == name[k + 9];
  }

  /** The active file's own name is never a rotated name and never matches either glob. */
  lemma BaseNameIsNoRotatedName(fileName: string, lead: nat)
    ensures !Matches(fileName, fileName, lead)
    ensures !IsRotatedName(fileName, fileName)
    ensures forall stamp :: |stamp| == 15 ==> |RotatedName(fileName, stamp)| > |fileName|
  {
    StemAndExtension(fileName);
  }

  /** The creation time the model records for a file; absent files count as created at 0. */
  function Created(fs: Fs, p: Path): int {
    if p in fs then fs[p].created else 0
  }

  predicate NewestFirst(fs: Fs, ps: seq<Path>) {
    forall i, j :: 0 <= i < j < |ps| ==> Created(fs, ps[i]) >= Created(fs, ps[j])
  }

  /** Inserts `p` before the first entry that is not newer than it, so earlier entries win ties. */
  function InsertByAge(fs: Fs, p: Path, ps: seq<Path>): (r: seq<Path>)
    requires NewestFirst(fs, ps)
    ensures NewestFirst(fs, r)
    ensures multiset(r) == multiset(ps) + multiset{p}
    ensures r != [] && (r[0] == p || (ps != [] && r[0] == ps[0]))
  {
    if ps == [] then [p]
    else if Created(fs, p) >= Created(fs, ps[0]) then ConsNewestFirst(fs, p, ps); [p] + ps
    else
      assert ps == [ps[0]] + ps[1..];
      NewestFirstTail(fs, ps);
      var rest := InsertByAge(fs, p, ps[1..]);
      assert rest[0] == p || (ps[1..] != [] && rest[0] == ps[1]);
      assert Created(fs, ps[0]) >= Created(fs, rest[0]);
      ConsNewestFirst(fs, ps[0], rest);
      [ps[0]] + rest
  }

  /** The tail of a newest-first list is newest-first, and its head is no newer than the list's head. */
  lemma NewestFirstTail(fs: Fs, ps: seq<Path>)
    requires NewestFirst(fs, ps) && ps != []
    ensures NewestFirst(fs, ps[1..])
    ensures |ps| > 1 ==> Created(fs, ps[0]) >= Created(fs, ps[1])
  {
    forall i, j | 0 <= i < j < |ps| - 1 ensures Created(fs, ps[1..][i]) >= Created(fs, ps[1..][j]) {
      assert ps[1..][i] == ps[i + 1] && ps[1..][j] == ps[j + 1];
    }
  }

  /** Putting a file in front of a newest-first list keeps it newest-first when it is at least as new as the head. */
  lemma ConsNewestFirst(fs: Fs, x: Path, rest: seq<Path>)
    requires NewestFirst(fs, rest)
    requires rest != [] ==> Created(fs, x) >= Created(fs, rest[0])
    ensures NewestFirst(fs, [x] + rest)
  {
    var r := [x] + rest;
    forall i, j | 0 <= i < j < |r| ensures Created(fs, r[i]) >= Created(fs, r[j]) {
      if i == 0 {
        assert r[j] == rest[j - 1];
        if j > 1 {
          assert Created(fs, rest[0]) >= Created(fs, rest[j - 1]);
        }
      } else {
        assert r[i] == rest[i - 1] && r[j] == rest[j - 1];
      }
    }
  }

  /** `OrderByDescending(f => f.CreationTime)`: the same files, newest first, ties in listing order. */
  function SortNewestFirst(fs: Fs, ps: seq<Path>): (r: seq<Path>)
    ensures NewestFirst(fs, r)
    ensures multiset(r) == multiset(ps)
  {
    if ps == [] then []
    else
      assert ps == [ps[0]] + ps[1..];
      InsertByAge(fs, ps[0], SortNewestFirst(fs, ps[1..]))
  }

  /** How many elements LINQ's `Skip(n)` drops from a sequence of length `len`. */
  function Dropped(n: int, len: nat): nat {
    if n <= 0 then 0 else if n >= len then len else n
  }

  /** LINQ `Skip(n)`: the tail after the first `n` elements; a non-positive `n` skips nothing. */
  function Skip<T>(s: seq<T>, n: int): (r: seq<T>)
    ensures |r| == |s| - Dropped(n, |s|)
    ensures s == s[..Dropped(n, |s|)] + r
  {
    if n <= 0 then s else if n >= |s| then [] else s[n..]
  }

  predicate InScope(dir: string, fileName: string, glob: Glob, p: Path) {
    p.dir == dir && Matches(p.name, fileName, Lead(glob))
  }

  /**
    `Directory.GetFiles(dir, pattern)`: the files of `listing` (the
    directory's enumeration order, which .NET leaves unspecified) that exist
    and match the glob.
  */
  function Found(fs: Fs, dir: string, fileName: string, glob: Glob, listing: seq<Path>): (r: seq<Path>)
    ensures forall p :: p in r <==> p in listing && p in fs && InScope(dir, fileName, glob, p)
  {
    if listing == [] then []
    else
      (if listing[0] in fs && InScope(dir, fileName, glob, listing[0]) then [listing[0]] else [])
      + Found(fs, dir, fileName, glob, listing[1..])
  }

  /** The files cleanup tries to delete: the found files, newest first, past the first `maxFiles`. */
  function Doomed(fs: Fs, dir: string, fileName: string, glob: Glob, maxFiles: int, listing: seq<Path>): seq<Path> {
    Skip(SortNewestFirst(fs, Found(fs, dir, fileName, glob, listing)), maxFiles)
  }

  /**
    `CleanupOldFiles`: deletes every doomed file except those whose deletion
    fails (`failures`); a failure does not stop the others and nothing
    escapes. It only ever deletes, only files in scope, and deletes nothing
    while no more than `maxFiles` files are found.
  */
  function Cleanup(fs: Fs, dir: string, fileName: string, glob: Glob, maxFiles: int,
                   listing: seq<Path>, failures: set<Path>): (r: Fs)
    ensures r.Keys <= fs.Keys
    ensures forall p :: p in r ==> r[p] == fs[p]
    ensures forall p :: p in fs && !InScope(dir, fileName, glob, p) ==> p in r
    ensures forall p :: p in fs && (p in failures || p !in listing) ==> p in r
    ensures |Found(fs, dir, fileName, glob, listing)| <= maxFiles ==> r == fs
    ensures forall p :: p in fs && p !in r ==> p in Doomed(fs, dir, fileName, glob, maxFiles, listing)
    ensures forall p :: p in Doomed(fs, dir, fileName, glob, maxFiles, listing) && p !in failures ==> p !in r
  {
    var doomed := Doomed(fs, dir, fileName, glob, maxFiles, listing);
    DoomedAreFound(fs, dir, fileName, glob, maxFiles, listing);
    FewFoundNoneDoomed(fs, dir, fileName, glob, maxFiles, listing);
    fs - Deleted(doomed, failures)
  }

  /** The files cleanup removes: the doomed ones whose deletion does not fail. */
  function Deleted(doomed: seq<Path>, failures: set<Path>): (d: set<Path>)
    ensures forall p :: p in d <==> p in doomed && p !in failures
  {
    set p | p in doomed && p !in failures
  }

  /** No file is doomed while no more than `maxFiles` are found. */
  lemma FewFoundNoneDoomed(fs: Fs, dir: string, fileName: string, glob: Glob, maxFiles: int, listing: seq<Path>)
    ensures |Found(fs, dir, fileName, glob, listing)| <= maxFiles ==> Doomed(fs, dir, fileName, glob, maxFiles, listing) == []
  {
    var found := Found(fs, dir, fileName, glob, listing);
    var sorted := SortNewestFirst(fs, found);
    assert |sorted| == |multiset(sorted)| == |multiset(found)| == |found|;
  }

  /** In a newest-first list, anything in a prefix is at least as new as anything after it. */
  lemma PrefixIsNewer(fs: Fs, sorted: seq<Path>, n: nat, kept: Path, gone: Path)
    requires NewestFirst(fs, sorted) && n <= |sorted|
    requires kept in sorted[..n] && gone in sorted[n..]
    ensures Created(fs, kept) >= Created(fs, gone)
  {
    var i :| 0 <= i < n && sorted[..n][i] == kept;
    var j :| 0 <= j < |sorted| - n && sorted[n..][j] == gone;
    assert sorted[i] == kept && sorted[n + j] == gone;
  }

  /** Every doomed file was found. */
  lemma DoomedAreFound(fs: Fs, dir: string, fileName: string, glob: Glob, maxFiles: int, listing: seq<Path>)
    ensures forall p :: p in Doomed(fs, dir, fileName, glob, maxFiles, listing) ==> p in Found(fs, dir, fileName, glob, listing)
  {
    var sorted := SortNewestFirst(fs, Found(fs, dir, fileName, glob, listing));
    var doomed := Doomed(fs, dir, fileName, glob, maxFiles, listing);
    assert sorted == sorted[..Dropped(maxFiles, |sorted|)] + doomed;
    forall p | p in doomed ensures p in Found(fs, dir, fileName, glob, listing) {
      assert p in multiset(sorted);
    }
  }

  /** A file that cleanup keeps on purpose is at least as new as every file it deletes. */
  lemma CleanupKeepsNewest(fs: Fs, dir: string, fileName: string, glob: Glob, maxFiles: int,
                           listing: seq<Path>, failures: set<Path>, kept: Path, gone: Path)
    requires kept in Found(fs, dir, fileName, glob, listing) && kept !in failures
    requires kept in Cleanup(fs, dir, fileName, glob, maxFiles, listing, failures)
    requires gone in fs && gone !in Cleanup(fs, dir, fileName, glob, maxFiles, listing, failures)
    ensures Created(fs, kept) >= Created(fs, gone)
  {
    var sorted := SortNewestFirst(fs, Found(fs, dir, fileName, glob, listing));
    var doomed := Doomed(fs, dir, fileName, glob, maxFiles, listing);
    var n := Dropped(maxFiles, |sorted|);
    assert sorted == sorted[..n] + doomed;
    assert kept !in doomed && gone in doomed;
    assert kept in multiset(sorted);
    assert kept in sorted[..n];
    assert sorted[n..] == doomed;
    PrefixIsNewer(fs, sorted, n, kept, gone);
  }

  lemma SetOfSeqCard<T>(s: seq<T>)
    ensures |set x | x in s| <= |s|
  {
    if s != [] {
      SetOfSeqCard(s[1..]);
      assert (set x | x in s) == {s[0]} + (set x | x in s[1..]);
    }
  }

  lemma SubsetCard<T>(a: set<T>, b: set<T>)
    requires a <= b
    ensures |a| <= |b|
  {
    assert b == a + (b - a);
  }

  /** The files in scope of the glob. */
  function InScopeFiles(fs: Fs, dir: string, fileName: string, glob: Glob): set<Path> {
    set p | p in fs && InScope(dir, fileName, glob, p)
  }

  /**
    Retention: when the listing shows every file in scope and no deletion
    fails, at most `maxFiles` files in scope remain.
  */
  lemma RetentionBound(fs: Fs, dir: string, fileName: string, glob: Glob, maxFiles: int, listing: seq<Path>)
    requires maxFiles >= 0
    requires forall p :: p in fs && InScope(dir, fileName, glob, p) ==> p in listing
    ensures |InScopeFiles(Cleanup(fs, dir, fileName, glob, maxFiles, listing, {}), dir, fileName, glob)| <= maxFiles
  {
    var r := Cleanup(fs, dir, fileName, glob, maxFiles, listing, {});
    var found := Found(fs, dir, fileName, glob, listing);
    var sorted := SortNewestFirst(fs, found);
    var doomed := Doomed(fs, dir, fileName, glob, maxFiles, listing);
    var n := Dropped(maxFiles, |sorted|);
    var prefix := sorted[..n];
    assert sorted == prefix + doomed;
    var left := InScopeFiles(r, dir, fileName, glob);
    forall p | p in left ensures p in prefix {
      assert p in r && InScope(dir, fileName, glob, p);
      assert p in fs;
      assert p in listing;
      assert p in found;
      assert p in multiset(sorted);
      assert p in sorted;
      assert p !in doomed;
    }
    var kept := set x | x in prefix;
    SetOfSeqCard(prefix);
    assert left <= kept;
    SubsetCard(left, kept);
  }
}

=== FILE: rotating_file_target.dfy ===
/**
  `RotatingFileTarget`: a queued file sink that, before appending a batch
  that would push the active file past `maxFileSize`, renames the active
  file to a timestamped name, optionally compresses it, and prunes old
  rotated files. Each flush is one atomic step; timer and semaphore are not
  modelled. The clock, the outcome of compression, the directory listing and
  the deletions that fail are inputs of a flush (`Env`).
*/
module RotatingFileTarget {
  import opened Wrappers
  import opened Text
  import opened Clock
  import opened FileSystem
  import opened LogEntries
  import opened RotatedFiles
  import DefaultFormatter

  /** The constructor's default size limit: 100 MiB. */
  const DefaultMaxFileSize: int := 100 * 1024 * 1024
  /** The constructor's default number of rotated files to keep. */
  const DefaultMaxFiles: int := 7

  /**
    When `CompressFile` deletes the original. The library deletes it inside
    the `await using` scope of the three streams (`DeleteBeforeClose`), so
    the gzip trailer is only written after the delete; `CloseBeforeDelete`
    disposes the streams first.
  */
  datatype StreamOrder = DeleteBeforeClose | CloseBeforeDelete

  /**
    The constructor's arguments: the base path as directory and file name,
    the size limit, how many rotated files to keep, whether to compress, and
    the two variants in force: the cleanup glob and the compression stream
    order (the library's are `AsWritten` and `DeleteBeforeClose`).
  */
  datatype Settings = Settings(dir: string, fileName: string, maxFileSize: int, maxFiles: int,
                               compress: bool, glob: Glob, order: StreamOrder)

  function Base(st: Settings): Path {
    Path(st.dir, st.fileName)
  }

  /** The settings the constructor uses when only the path is given. */
  function DefaultSettings(dir: string, fileName: string): (st: Settings)
    ensures Base(st) == Path(dir, fileName)
    ensures st.maxFileSize == 104_857_600 && st.maxFiles == 7 && !st.compress
    ensures st.glob == AsWritten && st.order == DeleteBeforeClose
  {
    Settings(dir, fileName, DefaultMaxFileSize, DefaultMaxFiles, false, AsWritten, DeleteBeforeClose)
  }

  /** The sink's state: its queue, the active path, the tracked size of the active file, and the file system. */
  datatype Sink = Sink(settings: Settings, queue: seq<string>, active: Path, size: int, fs: Fs)

  /** The invariant: the active path is the base path and the tracked size is the active file's byte length. */
  predicate Valid(s: Sink) {
    s.active == Base(s.settings) && s.size == Utf8Count(TextOf(s.fs, s.active))
  }

  /**
    The constructor. It creates the base path's directory, so that part must
    not be empty; the tracked size starts as the existing file's length, or 0.
  */
  function Create(st: Settings, fs: Fs): (s: Sink)
    requires st.dir != ""
    ensures s.settings == st && s.queue == [] && s.fs == fs && s.active == Base(st)
    ensures Base(st) in fs ==> s.size == Utf8Count(fs[Base(st)].text)
    ensures Base(st) !in fs ==> s.size == 0
    ensures Valid(s)
  {
    Sink(st, [], Base(st), if Base(st) in fs then Utf8Count(fs[Base(st)].text) else 0, fs)
  }

  /** Queueing one formatted message: it joins the end of the queue and nothing else changes. */
  function Accept(s: Sink, message: string): (r: Sink)
    ensures r.queue == s.queue + [message]
    ensures r.settings == s.settings && r.active == s.active && r.size == s.size && r.fs == s.fs
  {
    s.(queue := s.queue + [message])
  }

  /** `WriteAsync` with the default formatter. */
  function WriteAsync(s: Sink, e: LogEntry): (r: Sink)
    ensures r.queue == s.queue + [DefaultFormatter.Format(e)]
    ensures r.settings == s.settings && r.active == s.active && r.size == s.size && r.fs == s.fs
  {
    Accept(s, DefaultFormatter.Format(e))
  }

  /**
    How a compression attempt ends:
    - `Compressed`: everything succeeds;
    - `CompressFailed`: opening or copying throws, possibly leaving a
      partial `.gz` behind;
    - `DeleteFailed`: the copy completes but deleting the original throws;
    - `FinalizeFailed`: the copy completes but writing the last deflate
      block and the gzip trailer throws, leaving a `.gz` that decompresses
      to `written` only.
  */
  datatype CompressOutcome =
    | Compressed
    | CompressFailed(leftover: Option<string>)
    | DeleteFailed
    | FinalizeFailed(written: string)

  function GzPath(p: Path): Path {
    Path(p.dir, p.name + ".gz")
  }

  /** The outcomes after which the original is deleted although the `.gz` is incomplete. */
  predicate LosesText(order: StreamOrder, outcome: CompressOutcome) {
    order == DeleteBeforeClose && outcome.FinalizeFailed?
  }

  /** The outcomes after which the original is still there, untouched. */
  predicate KeepsOriginal(order: StreamOrder, outcome: CompressOutcome) {
    !outcome.Compressed? && !LosesText(order, outcome)
  }

  /**
    `CompressFile`. The `.gz` is written first. With `DeleteBeforeClose` the
    original is deleted before the gzip stream is finalized, so a failure
    in finalizing leaves a truncated `.gz` and no original; with
    `CloseBeforeDelete` that failure happens before the delete and the
    original stays. Every other failure leaves the original as it was. A
    `.gz` file that already existed keeps its creation time.
  */
  function Compress(fs: Fs, src: Path, order: StreamOrder, outcome: CompressOutcome, now: int): (r: Fs)
    requires src in fs
    ensures outcome.Compressed? ==> src !in r && GzPath(src) in r && r[GzPath(src)].text == fs[src].text
    ensures KeepsOriginal(order, outcome) ==> src in r && r[src] == fs[src]
    ensures outcome.DeleteFailed? ==> GzPath(src) in r && r[GzPath(src)].text == fs[src].text
    ensures LosesText(order, outcome) ==> src !in r && GzPath(src) in r && r[GzPath(src)].text == outcome.written
    ensures outcome == CompressFailed(None) ==> r == fs
    ensures forall q :: q in fs && q != src ==> q in r
    ensures SameOutside(fs, r, {src, GzPath(src)})
  {
    var gz := GzPath(src);
    var created := if gz in fs then fs[gz].created else now;
    match outcome
    case Compressed => (fs - {src})[gz := FileEntry(fs[src].text, created)]
    case CompressFailed(None) => fs
    case CompressFailed(Some(partial)) => fs[gz := FileEntry(partial, created)]
    case DeleteFailed => fs[gz := FileEntry(fs[src].text, created)]
    case FinalizeFailed(written) =>
      if order == DeleteBeforeClose then (fs - {src})[gz := FileEntry(written, created)]
      else fs[gz := FileEntry(written, created)]
  }

  /** The inputs of one flush: the clock, how compression ends, the directory listing, the deletions that fail. */
  datatype Env = Env(now: DateTime, compression: CompressOutcome, listing: seq<Path>, deleteFailures: set<Path>)

  /** `<dir>/<stem>.<yyyyMMdd-HHmmss><ext>`. */
  function RotatedPath(st: Settings, now: DateTime): Path {
    Path(st.dir, RotatedName(st.fileName, StampText(now)))
  }

  /**
    `File.Move` without overwrite throws when the rotated name is taken (two
    rotations in the same second); the model requires it to be free whenever
    there is a file to move.
  */
  predicate MoveTargetFree(s: Sink, now: DateTime) {
    s.active in s.fs ==> RotatedPath(s.settings, now) !in s.fs
  }

  /** The rotated path is neither the base path nor its compressed twin. */
  lemma RotatedPathIsFresh(st: Settings, now: DateTime)
    ensures RotatedPath(st, now) != Base(st) && GzPath(RotatedPath(st, now)) != Base(st)
    ensures IsRotatedName(RotatedPath(st, now).name, st.fileName)
    ensures IsRotatedName(GzPath(RotatedPath(st, now)).name, st.fileName)
  {
    BaseNameIsNoRotatedName(st.fileName, 0);
    RotatedNameShape(st.fileName, StampText(now), "");
    assert RotatedName(st.fileName, StampText(now)) + "" == RotatedName(st.fileName, StampText(now));
    RotatedNameShape(st.fileName, StampText(now), ".gz");
  }

  /**
    Moving `from` to the free path `to` and, when `compress` is set,
    compressing it there: the text survives in `to` or, after a complete
    compression, in `to`'s `.gz`, unless finalizing the `.gz` fails after
    the delete, when only the partial `.gz` is left.
  */
  function MoveAndCompress(fs: Fs, from: Path, to: Path, compress: bool, order: StreamOrder,
                           outcome: CompressOutcome, now: int): (r: Fs)
    requires from in fs && to !in fs
    ensures from != GzPath(to) ==> from !in r
    ensures (!compress || KeepsOriginal(order, outcome)) ==> to in r && r[to] == fs[from]
    ensures compress && outcome.Compressed? ==> to !in r && GzPath(to) in r && r[GzPath(to)].text == fs[from].text
    ensures compress && LosesText(order, outcome) ==>
              to !in r && GzPath(to) in r && r[GzPath(to)].text == outcome.written
    ensures forall q :: q in fs && q != from ==> q in r
    ensures SameOutside(fs, r, {from, to, GzPath(to)})
  {
    var moved := Move(fs, from, to);
    if !compress then moved
    else
      var r := Compress(moved, to, order, outcome, now);
      SameOutsideCompose(fs, moved, r, {from, to}, {to, GzPath(to)});
      assert {from, to} + {to, GzPath(to)} == {from, to, GzPath(to)};
      r
  }

  /**
    The first half of `RotateFile`: an existing active file is moved to the
    rotated path and, when compression is on, compressed. Its text survives
    in the rotated file or in the `.gz`, except when the `.gz` cannot be
    finalized after the original was deleted.
  */
  function MoveAside(s: Sink, env: Env): (r: Fs)
    requires MoveTargetFree(s, env.now)
    ensures s.active !in s.fs ==> r == s.fs
    ensures var rotated := RotatedPath(s.settings, env.now);
            s.active in s.fs && s.active == Base(s.settings) ==>
              && s.active !in r
              && ((!s.settings.compress || KeepsOriginal(s.settings.order, env.compression)) ==>
                    rotated in r && r[rotated] == s.fs[s.active])
              && (s.settings.compress && env.compression.Compressed? ==>
                    rotated !in r && GzPath(rotated) in r && r[GzPath(rotated)].text == s.fs[s.active].text)
              && (s.settings.compress && LosesText(s.settings.order, env.compression) ==>
                    rotated !in r && GzPath(rotated) in r && r[GzPath(rotated)].text == env.compression.written)
    ensures forall q :: q in s.fs && q != s.active ==> q in r
    ensures SameOutside(s.fs, r, {s.active, RotatedPath(s.settings, env.now), GzPath(RotatedPath(s.settings, env.now))})
  {
    if s.active !in s.fs then s.fs
    else
      RotatedPathIsFresh(s.settings, env.now);
      MoveAndCompress(s.fs, s.active, RotatedPath(s.settings, env.now), s.settings.compress, s.settings.order, env.compression,
                      Ticks(env.now))
  }

  /**
    `RotateFile`: move the active file aside, reset the active path to the
    base path and the tracked size to 0, then run cleanup, whether or not
    there was a file to move.
  */
  function Rotate(s: Sink, env: Env): (r: Sink)
    requires MoveTargetFree(s, env.now)
    ensures r.active == Base(s.settings) && r.size == 0
    ensures r.settings == s.settings && r.queue == s.queue
    ensures Valid(s) ==> Base(s.settings) !in r.fs && Valid(r)
  {
    var st := s.settings;
    var fs1 := MoveAside(s, env);
    var fs2 := Cleanup(fs1, st.dir, st.fileName, st.glob, st.maxFiles, env.listing, env.deleteFailures);
    RotatedPathIsFresh(st, env.now);
    s.(active := Base(st), size := 0, fs := fs2)
  }

  /** `string.Join(Environment.NewLine, messages) + Environment.NewLine`. */
  function BatchText(batch: seq<string>): string {
    Join(NewLine, batch) + NewLine
  }

  /** The batch's UTF-8 byte count. */
  function BatchBytes(batch: seq<string>): nat {
    Utf8Count(BatchText(batch))
  }

  /** The write decision: rotate exactly when the batch would take the file strictly past the limit. */
  predicate RotatesOn(s: Sink, batch: seq<string>) {
    s.size + BatchBytes(batch) > s.settings.maxFileSize
  }

  /**
    `WriteMessages`: rotate first when the batch would overflow the file,
    then append the batch to the active file and add its bytes to the
    tracked size. Without a rotation nothing but the active file changes;
    after one the active file holds exactly the batch.
  */
  function Write(s: Sink, batch: seq<string>, env: Env): (r: Sink)
    requires RotatesOn(s, batch) ==> MoveTargetFree(s, env.now)
    ensures r.settings == s.settings && r.queue == s.queue
    ensures r.size == (if RotatesOn(s, batch) then BatchBytes(batch) else s.size + BatchBytes(batch))
    ensures !RotatesOn(s, batch) ==> r.active == s.active
    ensures !RotatesOn(s, batch) ==> r.fs == Append(s.fs, s.active, BatchText(batch), Ticks(env.now))
    ensures RotatesOn(s, batch) && Valid(s) ==> TextOf(r.fs, Base(s.settings)) == BatchText(batch)
    ensures Valid(s) ==> Valid(r)
  {
    var content := BatchText(batch);
    var bytes := Utf8Count(content);
    var s1 := if s.size + bytes > s.settings.maxFileSize then Rotate(s, env) else s;
    var r := s1.(fs := Append(s1.fs, s1.active, content, Ticks(env.now)), size := s1.size + bytes);
    Utf8CountAppend(TextOf(s1.fs, s1.active), content);
    r
  }

  /** A flush's requirement: if it will rotate, the rotated name must be free. */
  predicate FlushAllowed(s: Sink, env: Env) {
    s.queue != [] && RotatesOn(s, s.queue) ==> MoveTargetFree(s, env.now)
  }

  /**
    `FlushQueue`: drain the whole queue, in order, as one batch and write it;
    an empty queue causes no file operation. The active file gains the
    queued messages as lines, after its old text unless a rotation came
    first.
  */
  function Flush(s: Sink, env: Env): (r: Sink)
    requires FlushAllowed(s, env)
    ensures r.queue == [] && r.settings == s.settings
    ensures s.queue == [] ==> r == s
    ensures Valid(s) ==> Valid(r)
    ensures Valid(s) && s.queue != [] && !RotatesOn(s, s.queue) ==>
              TextOf(r.fs, r.active) == TextOf(s.fs, s.active) + Lines(s.queue)
    ensures Valid(s) && s.queue != [] && RotatesOn(s, s.queue) ==>
              TextOf(r.fs, r.active) == Lines(s.queue)
  {
    if s.queue == [] then s
    else
      JoinThenNewLine(s.queue);
      Write(s.(queue := []), s.queue, env)
  }

  /** `Dispose`: one final flush, run to completion in this sequential model. */
  function Dispose(s: Sink, env: Env): (r: Sink)
    requires FlushAllowed(s, env)
    ensures r.queue == [] && r.settings == s.settings
    ensures Valid(s) ==> Valid(r)
  {
    Flush(s, env)
  }

  /** A batch larger than the limit still goes, whole, into a fresh active file. */
  lemma OversizedBatchWrittenWhole(s: Sink, batch: seq<string>, env: Env)
    requires Valid(s) && MoveTargetFree(s, env.now)
    requires BatchBytes(batch) > s.settings.maxFileSize
    ensures RotatesOn(s, batch)
    ensures TextOf(Write(s, batch, env).fs, Base(s.settings)) == BatchText(batch)
    ensures Write(s, batch, env).size == BatchBytes(batch)
  {
  }

  /**
    A batch that lands the file exactly on the limit does not rotate; one
    more byte does.
  */
  lemma RotationBoundary(s: Sink, batch: seq<string>)
    ensures s.size + BatchBytes(batch) == s.settings.maxFileSize ==> !RotatesOn(s, batch)
    ensures s.size + BatchBytes(batch) == s.settings.maxFileSize + 1 ==> RotatesOn(s, batch)
  {
  }

  /**
    With a 1000-byte limit and an empty file, two 400-byte batches go into
    the same file and the third starts a new one, which then holds 400 bytes.
  */
  lemma ThreeBatches(s0: Sink, b1: seq<string>, b2: seq<string>, b3: seq<string>, e1: Env, e2: Env, e3: Env)
    requires Valid(s0) && s0.size == 0 && s0.settings.maxFileSize == 1000
    requires BatchBytes(b1) == 400 && BatchBytes(b2) == 400 && BatchBytes(b3) == 400
    requires MoveTargetFree(Write(Write(s0, b1, e1), b2, e2), e3.now)
    ensures var s1 := Write(s0, b1, e1);
            var s2 := Write(s1, b2, e2);
            var s3 := Write(s2, b3, e3);
            && !RotatesOn(s0, b1) && s1.size == 400
            && !RotatesOn(s1, b2) && s2.size == 800
            && TextOf(s2.fs, Base(s0.settings)) == TextOf(s0.fs, Base(s0.settings)) + BatchText(b1) + BatchText(b2)
            && RotatesOn(s2, b3) && s3.size == 400
            && TextOf(s3.fs, Base(s0.settings)) == BatchText(b3)
  {
    var s1 := Write(s0, b1, e1);
    var s2 := Write(s1, b2, e2);
    assert TextOf(s1.fs, Base(s0.settings)) == TextOf(s0.fs, Base(s0.settings)) + BatchText(b1);
  }

  /**
    Rotation loses nothing unless the gzip trailer fails after the delete,
    which only the library's stream order allows: without compression, or
    with the streams closed before the delete, or with any other ending of
    compression, the rotated file (or its `.gz`) followed by the new active
    file holds the old active text and then the batch. (The library's
    cleanup glob never matches a rotated file.)
  */
  lemma RotationLosesNothing(s: Sink, batch: seq<string>, env: Env)
    requires Valid(s) && s.settings.glob == AsWritten
    requires !(s.settings.compress && LosesText(s.settings.order, env.compression))
    requires RotatesOn(s, batch) && MoveTargetFree(s, env.now) && s.active in s.fs
    ensures var r := Write(s, batch, env);
            var rotated := RotatedPath(s.settings, env.now);
            var kept := if s.settings.compress && env.compression.Compressed? then GzPath(rotated) else rotated;
            kept in r.fs && r.fs[kept].text + TextOf(r.fs, Base(s.settings)) == s.fs[s.active].text + BatchText(batch)
  {
    var st := s.settings;
    var rotated := RotatedPath(st, env.now);
    var kept := if st.compress && env.compression.Compressed? then GzPath(rotated) else rotated;
    var fs1 := MoveAside(s, env);
    RotatedPathIsFresh(st, env.now);
    assert kept in fs1 && fs1[kept].text == s.fs[s.active].text;
    AsWrittenMissesRotated(kept.name, st.fileName);
    var fs2 := Cleanup(fs1, st.dir, st.fileName, st.glob, st.maxFiles, env.listing, env.deleteFailures);
    assert kept in fs2 && fs2[kept] == fs1[kept];
    assert Rotate(s, env).fs == fs2;
    assert kept != Base(st);
  }

  /**
    As the library is written, a compressed rotation whose gzip trailer
    cannot be written loses the old active text: the rotated file is gone,
    its `.gz` holds only what was written before the failure, and the active
    file holds only the new batch.
  */
  lemma AsWrittenFinalizeLosesText(s: Sink, batch: seq<string>, env: Env)
    requires Valid(s) && s.settings.glob == AsWritten && s.settings.order == DeleteBeforeClose
    requires s.settings.compress && env.compression.FinalizeFailed?
    requires RotatesOn(s, batch) && MoveTargetFree(s, env.now) && s.active in s.fs
    ensures var r := Write(s, batch, env);
            var rotated := RotatedPath(s.settings, env.now);
            && rotated !in r.fs
            && GzPath(rotated) in r.fs && r.fs[GzPath(rotated)].text == env.compression.written
            && TextOf(r.fs, Base(s.settings)) == BatchText(batch)
  {
    var st := s.settings;
    var rotated := RotatedPath(st, env.now);
    RotateAfterFinalizeFailure(s, env);
    RotatedPathIsFresh(st, env.now);
    var s1 := Rotate(s, env);
    assert Write(s, batch, env).fs == Append(s1.fs, Base(st), BatchText(batch), Ticks(env.now));
  }

  /** The rotation step of `AsWrittenFinalizeLosesText`: cleanup leaves the partial `.gz` alone. */
  lemma RotateAfterFinalizeFailure(s: Sink, env: Env)
    requires Valid(s) && s.settings.glob == AsWritten && s.settings.order == DeleteBeforeClose
    requires s.settings.compress && env.compression.FinalizeFailed?
    requires MoveTargetFree(s, env.now) && s.active in s.fs
    ensures var rotated := RotatedPath(s.settings, env.now);
            && rotated !in Rotate(s, env).fs
            && GzPath(rotated) in Rotate(s, env).fs
            && Rotate(s, env).fs[GzPath(rotated)].text == env.compression.written
  {
    var st := s.settings;
    var rotated := RotatedPath(st, env.now);
    var fs1 := MoveAside(s, env);
    RotatedPathIsFresh(st, env.now);
    AsWrittenMissesRotated(GzPath(rotated).name, st.fileName);
    var fs2 := Cleanup(fs1, st.dir, st.fileName, st.glob, st.maxFiles, env.listing, env.deleteFailures);
    assert GzPath(rotated) in fs2 && fs2[GzPath(rotated)] == fs1[GzPath(rotated)];
  }

  /** The rotated files (and whatever is built on their names) in the base path's directory. */
  function RotatedFilesIn(fs: Fs, st: Settings): set<Path> {
    set p | p in fs && p.dir == st.dir && IsRotatedName(p.name, st.fileName)
  }

  /**
    As written, rotation never prunes: every rotated file there was before
    a rotation is still there after it, so their number only grows.
  */
  lemma AsWrittenNeverPrunes(s: Sink, env: Env)
    requires Valid(s) && s.settings.glob == AsWritten && MoveTargetFree(s, env.now)
    ensures RotatedFilesIn(s.fs, s.settings) <= RotatedFilesIn(Rotate(s, env).fs, s.settings)
  {
    var st := s.settings;
    var fs1 := MoveAside(s, env);
    var fs2 := Cleanup(fs1, st.dir, st.fileName, st.glob, st.maxFiles, env.listing, env.deleteFailures);
    RotatedPathIsFresh(st, env.now);
    forall p | p in RotatedFilesIn(s.fs, st) ensures p in RotatedFilesIn(fs2, st) {
      BaseNameIsNoRotatedName(st.fileName, 0);
      assert p != s.active && p in fs1;
      AsWrittenMissesRotated(p.name, st.fileName);
    }
  }

  /**
    With the intended glob, a rotation whose cleanup sees every rotated file
    and fails no deletion leaves at most `maxFiles` rotated files.
  */
  lemma RotationRetention(s: Sink, env: Env)
    requires Valid(s) && s.settings.glob == Intended && MoveTargetFree(s, env.now)
    requires s.settings.maxFiles >= 0 && env.deleteFailures == {}
    requires forall p :: p in MoveAside(s, env) && InScope(s.settings.dir, s.settings.fileName, Intended, p) ==> p in env.listing
    ensures |RotatedFilesIn(Rotate(s, env).fs, s.settings)| <= s.settings.maxFiles
  {
    var st := s.settings;
    var fs1 := MoveAside(s, env);
    var fs2 := Cleanup(fs1, st.dir, st.fileName, st.glob, st.maxFiles, env.listing, {});
    RetentionBound(fs1, st.dir, st.fileName, st.glob, st.maxFiles, env.listing);
    forall p | p in RotatedFilesIn(fs2, st) ensures p in InScopeFiles(fs2, st.dir, st.fileName, st.glob) {
      IntendedMatchesRotated(p.name, st.fileName);
    }
    SubsetCard(RotatedFilesIn(fs2, st), InScopeFiles(fs2, st.dir, st.fileName, st.glob));
  }
}

=== FILE: targets.dfy ===
/**
  The sinks a logger fans out to, as the logger sees them. A plain sink is a
  leaf that records every call it receives; `ConditionalTarget` is a
  decorator around another sink with a predicate that is consulted once per
  `WriteAsync`. The predicates read the process environment, so their
  answers are an input: `v(condition, n)` is what condition `condition`
  returns on its `n`-th evaluation.
*/
module Targets {
  import opened LogEntries

  /** The optional formatter argument of the builder: the library default or a caller-supplied one. */
  datatype FormatterChoice = DefaultFormat | CustomFormat(id: nat)

  /** Which sink a leaf stands for. `Custom` is any sink handed to `AddTarget`. */
  datatype TargetKind =
    | Console(formatter: FormatterChoice)
    | File(path: string, formatter: FormatterChoice)
    | JsonFile(path: string)
    | Custom(id: nat)

  /** A call received by a sink. */
  datatype Call = WriteCall(entry: LogEntry) | DisposeCall

  /**
    A sink: a recording leaf, or a `ConditionalTarget` holding its condition,
    the number of times the condition has been evaluated, and the inner sink.
  */
  datatype Target =
    | Leaf(kind: TargetKind, calls: seq<Call>)
    | Conditional(condition: nat, evaluations: nat, inner: Target)

  /** The answers of the conditions: `v(condition, n)` is the result of the `n`-th evaluation. */
  type Verdicts = (nat, nat) -> bool

  /** The calls that reached the sink at the bottom of a chain of decorators. */
  function Calls(t: Target): seq<Call> {
    match t
    case Leaf(_, calls) => calls
    case Conditional(_, _, inner) => Calls(inner)
  }

  /** The evaluation counters of the chain of decorators, from the outermost one down. */
  function Evaluations(t: Target): seq<nat> {
    match t
    case Leaf(_, _) => []
    case Conditional(_, n, inner) => [n] + Evaluations(inner)
  }

  /** The same chain of decorators around the same kind of sink; only counters and recorded calls may differ. */
  predicate SameShape(a: Target, b: Target) {
    match a
    case Leaf(kind, _) => b.Leaf? && b.kind == kind
    case Conditional(c, _, inner) => b.Conditional? && b.condition == c && SameShape(inner, b.inner)
  }

  /** A sink has its own shape. */
  lemma {:induction false} SameShapeReflexive(t: Target)
    ensures SameShape(t, t)
  {
    match t
    case Leaf(_, _) =>
    case Conditional(_, _, inner) => SameShapeReflexive(inner);
  }

  /** Every sink of a list has its own shape. */
  lemma SameShapeReflexiveAll(ts: seq<Target>)
    ensures forall i :: 0 <= i < |ts| ==> SameShape(ts[i], ts[i])
  {
    forall i | 0 <= i < |ts| ensures SameShape(ts[i], ts[i]) {
      SameShapeReflexive(ts[i]);
    }
  }

  /** Whether an entry written now passes every condition on the way to the bottom sink. */
  predicate Admits(t: Target, v: Verdicts) {
    match t
    case Leaf(_, _) => true
    case Conditional(c, n, inner) => v(c, n) && Admits(inner, v)
  }

  /**
    `WriteAsync`. A leaf records the entry. A conditional sink evaluates its
    condition exactly once; when it is false the inner sink is not called at
    all, when it is true the inner sink receives the same entry once.
  */
  function WriteAsync(t: Target, e: LogEntry, v: Verdicts): (r: Target)
    ensures SameShape(t, r)
    ensures Calls(r) == Calls(t) + (if Admits(t, v) then [WriteCall(e)] else [])
    ensures t.Conditional? ==> r.evaluations == t.evaluations + 1
    ensures t.Conditional? && !v(t.condition, t.evaluations) ==> r.inner == t.inner
    ensures t.Conditional? && v(t.condition, t.evaluations) ==> r.inner == WriteAsync(t.inner, e, v)
  {
    match t
    case Leaf(kind, calls) => Leaf(kind, calls + [WriteCall(e)])
    case Conditional(c, n, inner) =>
      if v(c, n) then Conditional(c, n + 1, WriteAsync(inner, e, v))
      else SameShapeReflexive(inner); Conditional(c, n + 1, inner)
  }

  /** `Dispose`: reaches the bottom sink once, whatever the conditions would answer, and evaluates none of them. */
  function Dispose(t: Target): (r: Target)
    ensures SameShape(t, r)
    ensures Calls(r) == Calls(t) + [DisposeCall]
    ensures Evaluations(r) == Evaluations(t)
  {
    match t
    case Leaf(kind, calls) => Leaf(kind, calls + [DisposeCall])
    case Conditional(c, n, inner) => Conditional(c, n, Dispose(inner))
  }

  /** A run of `WriteAsync` calls, one per entry, in order. */
  function WriteEach(t: Target, es: seq<LogEntry>, v: Verdicts): Target
    decreases |es|
  {
    if es == [] then t else WriteEach(WriteAsync(t, es[0], v), es[1..], v)
  }

  /** The calls that a run of writes leaves at a sink that admits every one of them. */
  function Writes(es: seq<LogEntry>): seq<Call> {
    if es == [] then [] else [WriteCall(es[0])] + Writes(es[1..])
  }

  /** One write through an open gate around a plain sink. */
  lemma OpenGateStep(t: Target, e: LogEntry, v: Verdicts)
    requires t.Conditional? && t.inner.Leaf? && v(t.condition, t.evaluations)
    ensures WriteAsync(t, e, v).Conditional? && WriteAsync(t, e, v).inner.Leaf?
    ensures WriteAsync(t, e, v).condition == t.condition
    ensures WriteAsync(t, e, v).evaluations == t.evaluations + 1
    ensures Calls(WriteAsync(t, e, v)) == Calls(t) + [WriteCall(e)]
  {
  }

  /**
    A condition that stays false from now on keeps its inner sink silent
    through any run of writes, while being evaluated once per write.
  */
  lemma {:induction false} ClosedGateIsSilent(t: Target, es: seq<LogEntry>, v: Verdicts)
    requires t.Conditional?
    requires forall n :: n >= t.evaluations ==> !v(t.condition, n)
    ensures WriteEach(t, es, v).Conditional?
    ensures WriteEach(t, es, v).inner == t.inner
    ensures WriteEach(t, es, v).evaluations == t.evaluations + |es|
    decreases |es|
  {
    if es != [] {
      var t' := WriteAsync(t, es[0], v);
      assert t'.inner == t.inner && t'.condition == t.condition;
      ClosedGateIsSilent(t', es[1..], v);
    }
  }

  /**
    A condition that stays true from now on, around a plain sink, passes
    every entry through, in order, while being evaluated once per write.
  */
  lemma {:induction false} OpenGatePassesAll(t: Target, es: seq<LogEntry>, v: Verdicts)
    requires t.Conditional? && t.inner.Leaf?
    requires forall n :: n >= t.evaluations ==> v(t.condition, n)
    ensures WriteEach(t, es, v).Conditional?
    ensures Calls(WriteEach(t, es, v)) == Calls(t) + Writes(es)
    ensures WriteEach(t, es, v).evaluations == t.evaluations + |es|
    decreases |es|
  {
    if es == [] {
      assert Writes(es) == [];
    } else {
      var t' := WriteAsync(t, es[0], v);
      OpenGateStep(t, es[0], v);
      OpenGatePassesAll(t', es[1..], v);
      assert Writes(es) == [WriteCall(es[0])] + Writes(es[1..]);
    }
  }
}

=== FILE: text.dfy ===
/**
  Text helpers shared by the formatter and the file sinks: the newline the
  sinks write, UTF-8 byte counting, the two ways a batch of messages becomes
  file text, zero-padded decimals and ASCII upper-casing.
*/
module Text {

  /** `Environment.NewLine`; the model fixes the Unix value. */
  const NewLine: string := "\n"

  /** Number of bytes UTF-8 spends on one Unicode scalar value. */
  function Utf8Width(c: char): (w: nat)
    ensures 1 <= w <= 4
    ensures w == 1 <==> c as int < 0x80
  {
    if c as int < 0x80 then 1
    else if c as int < 0x800 then 2
    else if c as int < 0x1_0000 then 3
    else 4
  }

  /** `Encoding.UTF8.GetByteCount`: every character costs one to four bytes. */
  function Utf8Count(s: string): (n: nat)
    ensures |s| <= n <= 4 * |s|
  {
    if s == [] then 0 else Utf8Width(s[0]) + Utf8Count(s[1..])
  }

  predicate IsAscii(s: string) {
    forall i :: 0 <= i < |s| ==> s[i] as int < 0x80
  }

  /** Byte counts add up over concatenation, which is what lets a sink track a file's size incrementally. */
  lemma {:induction false} Utf8CountAppend(a: string, b: string)
    ensures Utf8Count(a + b) == Utf8Count(a) + Utf8Count(b)
  {
    if a == [] {
      assert a + b == b;
    } else {
      assert (a + b)[0] == a[0];
      assert (a + b)[1..] == a[1..] + b;
      Utf8CountAppend(a[1..], b);
    }
  }

  /** A text costs one byte per character exactly when it is ASCII. */
  lemma {:induction false} Utf8CountAscii(s: string)
    ensures IsAscii(s) <==> Utf8Count(s) == |s|
  {
    if s != [] {
      Utf8CountAscii(s[1..]);
      assert IsAscii(s) <==> s[0] as int < 0x80 && IsAscii(s[1..]) by {
        if IsAscii(s) {
          forall i | 0 <= i < |s[1..]| ensures s[1..][i] as int < 0x80 {
            assert s[1..][i] == s[i + 1];
          }
        }
        if s[0] as int < 0x80 && IsAscii(s[1..]) {
          forall i | 0 <= i < |s| ensures s[i] as int < 0x80 {
            if i > 0 { assert s[i] == s[1..][i - 1]; }
          }
        }
      }
    }
  }

  /** Each message followed by a newline: the text `File.AppendAllLines` adds. */
  function Lines(messages: seq<string>): string
  {
    if messages == [] then "" else messages[0] + NewLine + Lines(messages[1..])
  }

  /** `string.Join(separator, parts)`. */
  function Join(separator: string, parts: seq<string>): string
  {
    if |parts| == 0 then ""
    else if |parts| == 1 then parts[0]
    else parts[0] + separator + Join(separator, parts[1..])
  }

  /** Rendering a batch distributes over splitting the batch. */
  lemma {:induction false} LinesAppend(a: seq<string>, b: seq<string>)
    ensures Lines(a + b) == Lines(a) + Lines(b)
  {
    if a == [] {
      assert a + b == b;
    } else {
      assert (a + b)[0] == a[0];
      assert (a + b)[1..] == a[1..] + b;
      LinesAppend(a[1..], b);
    }
  }

  /**
    Joining a non-empty batch with newlines and adding one more newline gives
    the same text as writing every message as a line. For an empty batch the
    two differ: the join form is a lone newline.
  */
  lemma {:induction false} JoinThenNewLine(parts: seq<string>)
    ensures parts != [] <==> Join(NewLine, parts) + NewLine == Lines(parts)
  {
    if |parts| == 1 {
      assert parts[1..] == [];
    } else if |parts| > 1 {
      JoinThenNewLine(parts[1..]);
    }
  }

  predicate IsDigit(c: char) {
    '0' <= c <= '9'
  }

  /** The last `width` decimal digits of `n`, zero-padded on the left. */
  function Decimal(n: nat, width: nat): (s: string)
    ensures |s| == width
    ensures forall i :: 0 <= i < |s| ==> IsDigit(s[i])
  {
    if width == 0 then "" else Decimal(n / 10, width - 1) + ["0123456789"[n % 10]]
  }

  function Pow10(k: nat): (p: nat)
    ensures p >= 1
  {
    if k == 0 then 1 else 10 * Pow10(k - 1)
  }

  /** The number a string of decimal digits denotes. */
  function DecimalValue(s: string): nat
    requires forall i :: 0 <= i < |s| ==> IsDigit(s[i])
  {
    if s == [] then 0
    else
      assert IsDigit(s[|s| - 1]);
      10 * DecimalValue(s[..|s| - 1]) + (s[|s| - 1] as int - '0' as int)
  }

  lemma ModStep(n: nat, p: nat)
    requires p >= 1
    ensures (n / 10) % p * 10 + n % 10 == n % (10 * p)
  {
    var q, r := n / 10, n % 10;
    var a, b := q / p, q % p;
    assert n == 10 * p * a + (10 * b + r);
    assert 0 <= 10 * b + r < 10 * p;
    LemmaModUnique(n, 10 * p, a, 10 * b + r);
  }

  lemma LemmaModUnique(n: int, d: int, a: int, b: int)
    requires d > 0 && n == d * a + b && 0 <= b < d
    ensures n % d == b
  {
    var q, r := n / d, n % d;
    assert n == d * q + r;
    if q > a {
      assert d * q >= d * (a + 1) by { LemmaMulMono(d, a + 1, q); }
    } else if q < a {
      assert d * a >= d * (q + 1) by { LemmaMulMono(d, q + 1, a); }
    }
  }

  lemma LemmaMulMono(d: int, x: int, y: int)
    requires d > 0 && x <= y
    ensures d * x <= d * y
  {
  }

  /** Reading back a zero-padded decimal gives the number modulo the width's power of ten. */
  lemma {:induction false} DecimalRoundTrip(n: nat, width: nat)
    ensures DecimalValue(Decimal(n, width)) == n % Pow10(width)
  {
    if width > 0 {
      var s := Decimal(n, width);
      var d := "0123456789"[n % 10];
      assert s[..|s| - 1] == Decimal(n / 10, width - 1);
      assert s[|s| - 1] == d;
      assert d as int - '0' as int == n % 10;
      DecimalRoundTrip(n / 10, width - 1);
      ModStep(n, Pow10(width - 1));
    }
  }

  /** A number below the width's power of ten reads back exactly. */
  lemma DecimalExact(n: nat, width: nat)
    requires n < Pow10(width)
    ensures DecimalValue(Decimal(n, width)) == n
  {
    DecimalRoundTrip(n, width);
    LemmaModUnique(n, Pow10(width), 0, n);
  }

  /** Upper-casing under the invariant culture, restricted to ASCII letters, which is all the level names need. */
  function UpperChar(c: char): (u: char)
    ensures 'a' <= c <= 'z' ==> u as int == c as int - 32
    ensures !('a' <= c <= 'z') ==> u == c
  {
    if 'a' <= c <= 'z' then (c as int - 32) as char else c
  }

  /** `string.ToUpper` as the invariant culture does it over ASCII: the same length, each character upper-cased. */
  function Upper(s: string): (u: string)
    ensures |u| == |s|
    ensures forall i :: 0 <= i < |s| ==> u[i] == UpperChar(s[i])
  {
    if s == [] then "" else [UpperChar(s[0])] + Upper(s[1..])
  }
}

=== FILE: wrappers.dfy ===
/** Optional values: the model's stand-in for C#'s nullable references. */
module Wrappers {

  datatype Option<+T> = None | Some(value: T)
}
